=== FILE: README.md ===
# AWE contracts in Dafny

A model of the AWE token tooling on Solana: the `awe` on-chain program that
sells agents for a fee in AWE tokens, the TypeScript clients that drive it,
and the airdrop script that distributes AWE in batches. The program, the
Token-2022 operations the code relies on and the three clients share one
abstract account store (`Ledger.Store`, a map from address to account), on
which instructions and resolve-or-create flows are pure functions or small
methods. The airdrop touches no store: it is sequence and number logic over
the parsed rows, and its one external call is an outcome parameter.

Modules, one per file:

- `Results` (`results.dfy`): `Option` and `Result` with the `:-` failure propagation.
- `Text` (`text.dfy`): substring search, which stands for the `/Account does not exist/` test the clients apply to fetch errors.
- `Decimal` (`decimal.dfy`): decimal digit strings, their value, and the conversion of a display amount to base units by appending nine zeros.
- `Addresses` (`addresses.dfy`): addresses and program-derived addresses (PDAs). A PDA is the constructor `Pda(program, seeds)`, so derivation is injective by construction.
- `Ledger` (`ledger.dfy`): the account kinds (`AweMetadata`, `AgentCreator`, mints and token accounts), `u64`/`u8`, errors, and the store invariant `WellFormed`.
- `Token` (`token.dfy`): `transfer_checked`, `approveChecked`, `mintToChecked` and associated-token-account creation as balance, allowance and existence updates.
- `AweProgram` (`program.dfy`): the four instructions of `programs/awe/src/lib.rs`, with every `#[derive(Accounts)]` constraint turned into a check that fails the instruction.
- `Instructions` (`instructions.dfy`): one dispatcher over every instruction the clients send, and the proof that a successful instruction keeps the store well formed.
- `AgentAccounting` (`accounting.dfy`): what the agent instructions promise over a run of calls.
- `Rpc` (`rpc.dfy`): the client's view of the cluster: store, fetch faults and a log of sent transactions.
- `MetadataClient`, `TokenClient`, `AgentClient` (`metadata_client.dfy`, `token_client.dfy`, `agent_client.dfy`): `client/awe_metadata.ts`, `client/awe_token.ts` and `client/awe_agent.ts`.
- `Airdrop` (`airdrop.dfy`): `client/batch_transfer_awe.ts`.

Environment effects are parameters:

- **Network failures.** A fetch fails where `Node.faults` says so, with the message given there.
- **The airdrop's transfer call.** `batchTransferAweToken` is the set `failing`: call number `k` throws exactly when `k` is in it.
- **Key decoding.** base58 decoding of a recipient is the function `decode`, and a key is on the ed25519 curve exactly when it is not a PDA.

Some functions only transcribe a library call, and their contracts restate their bodies; the properties above are stated in terms of them:

- `Airdrop.ParseAmount` is `new BN(text)`, which yields the digit string's value.
- `Addresses.GetAssociatedTokenAddress` is `getAssociatedTokenAddress` with off-curve owners refused.
- `Rpc.FetchAccount` and the typed fetches `MetadataClient.FetchMetadata` and `AgentClient.FetchCreator` are Anchor's `fetch`. `TokenClient.GetAccount` and `TokenClient.GetMint` are the token library's `getAccount` and `getMint`. Each fails with the node's fault message, a missing-account error or a wrong-kind error.
- `Rpc.NullIfMissing` is the clients' shared catch block: it returns null on `/Account does not exist/` and rethrows anything else.
- `Rpc.Send` is `sendAndConfirm` / `.rpc()`. It logs the instruction, and the store changes exactly when the instruction executes successfully.
- `MetadataClient.MetadataLookupAddress` is the default-argument branch of `getAweMetadataAccount`.

## Model

| member | source | states |
|---|---|---|
| Airdrop.IsValidRecord | client/batch_transfer_awe.ts:13-36 | A row is accepted exactly when its address decodes to an on-curve key and its amount is a digit string whose value is greater than zero; every other row, including one whose parsing would throw, is rejected |
| Airdrop.ValidateRecords | client/batch_transfer_awe.ts:62-79 | The verdict is Invalid exactly when some row is invalid. It then names the 1-based line of the first invalid row, and every earlier row is valid. Otherwise the count is the number of rows and the total is the sum of all display amounts, whatever `startIdx` is |
| Airdrop.JsBatchEnd | client/batch_transfer_awe.ts:88 | The `&&`/`\|\|` expression equals `min(cursor + batchSize, records.length)` whenever the batch size is at least 1 |
| Airdrop.Plan | client/batch_transfer_awe.ts:86-120 | No batch is planned exactly when the cursor is already at or past the end; otherwise the first batch starts at the cursor and the last ends at `records.length` |
| Airdrop.PlanBatchSizes | client/batch_transfer_awe.ts:86-120 | Every batch holds between 1 and `batchSize` rows and ends within the rows; every batch but the last is full |
| Airdrop.PlanContiguous | client/batch_transfer_awe.ts:86-117 | Each batch starts where the previous one ended |
| Airdrop.PlanDisjoint | client/batch_transfer_awe.ts:86-117 | Batches are ascending and do not overlap, so no row is sent twice |
| Airdrop.PlanCovers | client/batch_transfer_awe.ts:86-120 | Every row from the start index on lies in some planned batch |
| Airdrop.PlanLength | client/batch_transfer_awe.ts:86-120 | The number of calls is the ceiling of (rows after the cursor) / `batchSize` |
| Airdrop.PlanResumes | client/batch_transfer_awe.ts:81-88 | Restarting with `startIdx` at the start of any planned batch replays exactly the remaining batches |
| Airdrop.PlanAdvance | client/batch_transfer_awe.ts:86-117 | Each batch ends where line 88 computes from its start; another batch follows exactly when that end is short of the row count, and it starts there |
| Airdrop.PlanWithin | client/batch_transfer_awe.ts:95-96 | Every planned batch indexes existing rows |
| Airdrop.TwentyFiveRows | client/batch_transfer_awe.ts:86-120 | 25 rows with the script's batch size of 10 go out as batches [0,10), [10,20) and [20,25) |
| Airdrop.RangeSumSplit | client/batch_transfer_awe.ts:102-103 | Totals over adjacent row ranges add up |
| Airdrop.BatchEntry | client/batch_transfer_awe.ts:95-100 | Entry j of a batch's address list is the text of row start + j, and its amount is that row's display amount times 10^9 |
| Airdrop.BatchCallsEntry | client/batch_transfer_awe.ts:106-111 | Call i carries exactly the rows of batch i |
| Airdrop.CollectBatch | client/batch_transfer_awe.ts:95-104 | The inner loop builds the call for its batch, by scaling each amount textually. The two totals grow by the batch's row count and by 10^9 times its display sum |
| Airdrop.TransferPhase | client/batch_transfer_awe.ts:81-126 | The calls made are those of a prefix of the plan. The run completes exactly when no planned call fails. A completed run counts `records.length − startIdx` addresses and 10^9 × (display sum from `startIdx`), with the cursor at the end. If call k throws, it is the first failing call and k calls were counted as transactions. The cursor is left at that batch's start, while the address and amount totals already include the failed batch |
| Airdrop.TurnKeepsInvariant | client/batch_transfer_awe.ts:86-117 | One loop turn sends the next planned batch and extends the calls and the amount total accordingly |
| Airdrop.RunAirdrop | client/batch_transfer_awe.ts:62-126 | Nothing is sent unless every row is valid, and the first invalid line is reported. Once validation passes, the calls made are the planned batches in order, from the first. The run completes exactly when no planned call throws. A throw stops the run at the first failing call, with the totals up to the end of that batch. With `startIdx` 0, a completed run transfers as many addresses as were validated and 10^9 times the validated total |
| Decimal.ToBaseUnits | client/batch_transfer_awe.ts:99 | Appending "000000000" to a digit string gives a digit string whose value is the original value times 10^9; this is the same `* 1e9` that `mint_awe.ts` does arithmetically |
| Decimal.AppendZerosScales | client/batch_transfer_awe.ts:99 | Appending k zero digits multiplies the value by 10^k |
| Addresses.MetadataAddress | programs/awe/src/lib.rs:94-101 | The metadata account is the awe program's PDA (`"awe_metadata"`, user); it is off the curve and not an agent-creator address |
| Addresses.AgentCreatorAddress | programs/awe/src/lib.rs:150-157 | The agent-creator account is the awe program's PDA (`"agent_creator"`, metadata, user), off the curve |
| Addresses.DelegateAddress | programs/awe/src/lib.rs:165-169 | The transfer authority is the awe program's PDA (`"delegate"`), off the curve |
| Addresses.DeriveAssociatedTokenAddress | client/awe_token.ts:235-241 | The associated token address of (mint, owner) is a PDA of the associated-token program, off the curve |
| Addresses.AssociatedTokenAddressRoundTrip | client/awe_token.ts:235-241 | An address is the derivation for (mint, owner) exactly when it is an associated token address whose decomposition gives back that mint and owner |
| Addresses.ProgramAddressesDistinct | programs/awe/src/lib.rs:94-169 | Metadata addresses of two users agree exactly when the users do; metadata, agent-creator and delegate PDAs never coincide |
| Token.TransferChecked | programs/awe/src/lib.rs:38-51 | The transfer succeeds exactly when both accounts belong to the mint, the decimals match the mint's, the source holds the amount, the authority is the owner or a delegate within its allowance, and the destination does not overflow `u64`. It then moves exactly the amount. The destination keeps its delegate and allowance. A delegate's allowance shrinks by the amount, and the delegate is cleared when the allowance reaches zero. An owner's transfer changes only the balance. No other account changes |
| Token.ApproveChecked | client/awe_token.ts:306-315 | Approval succeeds exactly when the account belongs to the mint, the decimals match and the owner signs; it then replaces the delegate and allowance and changes nothing else |
| Token.MintToChecked | client/awe_token.ts:202-210 | Minting succeeds exactly when the decimals match, the authority is the mint authority and nothing overflows; the destination's balance and the supply then grow by the amount |
| Token.CreateAssociatedTokenAccount | client/awe_token.ts:266-273 | Creation succeeds exactly at the derived address, when it is empty and the mint exists; it creates an empty token account of that mint and owner and nothing else |
| AweProgram.CheckMetadataAccounts | programs/awe/src/lib.rs:87-130 | The metadata accounts pass exactly when the mint is a mint, the metadata account is the user's PDA, absent for `init` and a metadata account for `mut`, and the collector is a token account of the mint |
| AweProgram.InitAweMetadata | programs/awe/src/lib.rs:13-20 | `init_awe_metadata` succeeds exactly when its constraints hold and then stores exactly the given mint, collector and price at the user's PDA, changing nothing else |
| AweProgram.UpdateAweMetadata | programs/awe/src/lib.rs:22-29 | `update_awe_metadata` succeeds exactly when the signer's own metadata account exists and the constraints hold; it overwrites the three fields at that PDA only |
| AweProgram.CheckAgentAccounts | programs/awe/src/lib.rs:132-216 | The agent accounts pass exactly when metadata's stored mint and collector are the passed ones, sender and collector are token accounts of that mint, the creator is the (`"agent_creator"`, metadata, user) PDA, absent for `init` and an agent-creator account for `mut`, and the delegate is the `"delegate"` PDA |
| AweProgram.InitAgentCreator | programs/awe/src/lib.rs:31-57 | `init_agent_creator` succeeds exactly when the constraints hold and the fee transfer succeeds; then `num_agents` is 1, the metadata is unchanged, only sender, collector and creator change, and exactly `agent_price` moved from sender to collector |
| AweProgram.CreateAgent | programs/awe/src/lib.rs:59-84 | `create_agent` succeeds exactly when the constraints hold and the fee transfer succeeds; then `num_agents` grew by one, the metadata is unchanged, and exactly `agent_price` moved from sender to collector |
| AgentAccounting.CounterMovesIffFeePaid | programs/awe/src/lib.rs:65-82 | `num_agents` changes if and only if the fee moved from sender to collector |
| AgentAccounting.AgentStepEffect | programs/awe/src/lib.rs:38-82 | A successful `init_agent_creator` or `create_agent` leaves an agent-creator account with one more agent, keeps the metadata, and moves one `agent_price` from sender to collector |
| AgentAccounting.EffectsAccumulate | programs/awe/src/lib.rs:38-82 | Starting without an agent-creator account, n consecutive calls with that effect leave `num_agents` at n and the metadata unchanged |
| AgentAccounting.FeesAccumulate | programs/awe/src/lib.rs:65-82 | n consecutive calls at an unchanged price move n × `agent_price` from sender to collector |
| AgentAccounting.SuccessfulRunAccounting | programs/awe/src/lib.rs:38-82 | After n successful agent calls starting without an agent-creator account, `num_agents` is n, the metadata is unchanged, and the collector gained and the sender lost n × `agent_price` |
| Instructions.ExecutePreservesWellFormed | programs/awe/src/lib.rs:87-216 | Every successful instruction keeps the store well formed. Each metadata account names a mint and a collector of that mint, and each token account names an existing mint. Associated addresses hold the token account of their (mint, owner), and agent-creator addresses hold agent-creator accounts |
| Text.ScanFindsIffContains | client/awe_metadata.ts:35 | The left-to-right scan finds the pattern exactly when it occurs at some index, which is what the test checks |
| Rpc.MessagesClassified | client/awe_agent.ts:35 | Anchor's missing-account message matches the test; its wrong-type message does not |
| MetadataClient.GetAweMetadataAccount | client/awe_metadata.ts:11-42 | The result is the stored metadata exactly when it is present and the fetch does not fail. Without a fetch fault it is null exactly when nothing is stored at the address |
| MetadataClient.MetadataLookupClassified | client/awe_metadata.ts:33-41 | The lookup is null exactly when the fetch error reads "Account does not exist" or the address is empty. Any other error is rethrown, and its message does not match the test |
| MetadataClient.GetOrCreateAweMetadataAccount | client/awe_metadata.ts:44-80 | An existing account is returned as it is, whatever it holds, and nothing is sent. A lookup error is rethrown. When the lookup returns null, `initAweMetadata` with the given mint, collector and price is always sent. When the program's `init` constraints hold, the call returns exactly that new metadata. A result is always an account present in the store |
| MetadataClient.UpdateAweMetadataAccount | client/awe_metadata.ts:82-107 | Sends `updateAweMetadata` for the wallet's own PDA and returns that address, the same one the lookup derives; on success only that account changed, to the given fields |
| TokenClient.GetOrCreateAssociatedTokenAccount | client/awe_token.ts:228-286 | An off-curve owner is refused. An existing account is returned and nothing is sent. On not-found, one create transaction paid by the provider is sent for (owner, mint), and when the mint exists the fresh empty account is returned. Any other lookup error is rethrown. Only the associated address changes, and only a present account is returned |
| TokenClient.MintAweToken | client/awe_token.ts:165-223 | On success the last transaction sent mints exactly `amount` with the mint's on-chain decimals to the owner's associated account, whose balance and the supply grow by `amount` |
| TokenClient.Approve | client/awe_token.ts:288-324 | Sends one approval stating 9 decimals; on success the delegate and allowance are replaced and nothing else changes; a mint with other decimals makes it fail |
| AgentClient.GetAgentCreatorAccount | client/awe_agent.ts:15-42 | Looks up the (`"agent_creator"`, metadata, provider) PDA, the program's own seeds. The result is the stored agent-creator account exactly when one is there and the fetch does not fail. Without a fetch fault it is null exactly when nothing is there |
| AgentClient.CreatorLookupClassified | client/awe_agent.ts:34-41 | The lookup is null exactly when the error reads "Account does not exist" or nothing is there. Every other error is rethrown, and its message does not match the test |
| AgentClient.FinishAgent | client/awe_agent.ts:73-123 | Throws before sending anything when the balance is below the price. Otherwise the approval of the delegate PDA for exactly the price is always sent. The chosen agent instruction follows whenever the approval and the creator lookup succeed. When every remote step goes through (`AgentCallGoesThrough`: the approval, the lookup, the chosen instruction, an unfaulted re-fetch), the call returns the counter. The re-fetched counter is 1 for a new creator and the previous value + 1 otherwise |
| AgentClient.ApproveAndSendAgent | client/awe_agent.ts:77-123 | Sends the approval first, then the instruction chosen from the creator lookup whenever the approval and the lookup succeed. It returns the counter whenever every remote step goes through, and the counter is then as in `FinishAgent` |
| AgentClient.ClientChoiceSucceeds | client/awe_agent.ts:85-114 | In a well-formed store, once the provider's associated account covers the price and approves the delegate for it, `initAgentCreator` (no creator yet) or `createAgent` (otherwise) passes every on-chain constraint and pays the fee |
| AgentClient.PayForAgent | client/awe_agent.ts:56-123 | Every transaction sent is the provider's account creation, the approval (only when the balance covers the price) or the chosen agent instruction. When the provider's account is not found, its creation is the first transaction sent, before the balance check. Too small a balance means an error with at most the account creation sent. When the provider's account exists or can be created and covers the price, the approval is sent. When it exists, the approval succeeds and the lookup succeeds, exactly the approval and the chosen instruction are sent. When the account exists, covers the price and every remote step goes through, the call returns the counter. On success the last two transactions are those two, and the counter is as in `FinishAgent` |
| AgentClient.PayFromAccount | client/awe_agent.ts:73-123 | The part of `PayForAgent` after the token account is resolved: the same log and counter guarantees, stated against the node before resolution. What the resolution already sent is kept at the head of the log. It returns the counter when the balance covers the price and every remote step goes through |
| AgentClient.CreateAgentFlow | client/awe_agent.ts:44-124 | Absent metadata throws "Awe metadata account not initialized" before sending anything, and another lookup error is rethrown. Once the metadata is found, it gives `PayForAgent`'s guarantees. A missing provider account is created first. Too small a balance means an error with at most that creation sent. The approval is sent whenever the provider's account covers the price, and the chosen agent instruction follows it when the approval and the lookup succeed. When the account exists, covers the price and every remote step goes through, the call returns the counter |

## Left out

- Reading `airdrop.csv`, dotenv and the environment checks, console logging, and `sleep` between batches are left out. They affect output and timing, not state. The model receives the rows already parsed.
- `batchTransferAweToken` is imported by the airdrop script but defined in none of its files, so its transaction composition is not modelled. It is the `failing` set of call numbers that throw.
- base58 decoding of recipient keys and the ed25519 curve test are the parameter `decode` and the predicate `OnCurve`; PDA bump search is not modelled, and PDA derivation is injective by construction.
- Airdrop.ParseAmount: how `new BN(text)` treats text that is not a decimal digit string is not modelled. Such text counts as a parse failure, so such a row is rejected.
- Airdrop.TransferPhase: a failing batch is modelled as the call throwing, which ends the run at the top-level catch. A call that returns but whose transaction did not land is indistinguishable from a success here.
- Rows with fewer than two CSV fields are not modelled; a `Record` always has an address and an amount text.
- `createAweTokenWithMetadata` (instruction assembly, rent sizing and metadata packing) and the one-shot scripts (`setup_awe_token.ts`, `setup_awe_metadata.ts`, `create_wallet.ts`, `mint_awe.ts` and `test_awe_agent.ts`) are not modelled. The `* 1e9` of `mint_awe.ts` is the scaling stated in the `Decimal.ToBaseUnits` row.
- The `uiAmount` floating-point values are only logged, so they are left out.
- AweProgram.CreateAgent: requires `num_agents < 255`. Whether the `u8` `+= 1` wraps or panics depends on build settings the repository does not show.
- AgentClient.FinishAgent: requires `num_agents < 255` at the provider's agent-creator account, for the same reason.
- AgentClient.PayForAgent: requires `num_agents < 255` at the provider's agent-creator account, for the same reason.
- AgentClient.CreateAgentFlow: requires `num_agents < 255` at the provider's agent-creator account, for the same reason.
- AgentClient.ApproveAndSendAgent: requires `num_agents < 255` at the provider's agent-creator account, for the same reason.
- AgentClient.PayFromAccount: requires `num_agents < 255` at the provider's agent-creator account, for the same reason.
- AgentClient.PayForAgent: when the provider's token account has to be created first, only the approval is promised, not the agent instruction after it. A fresh account holds 0, so this case only arises for a price of 0.
- AgentClient.FinishAgent: the "Not enough AWE" message omits the balance and price the source appends to it.
- AgentAccounting.CounterMovesIffFeePaid: is stated for a sender distinct from the collector and a price above zero. Otherwise a successful fee transfer leaves both balances as they were, and the equivalence does not hold.
- AgentClient.ClientChoiceSucceeds: assumes the collector's balance plus the price fits in `u64`. A collector close to the `u64` limit makes the fee transfer fail.
- Blockhashes, commitment levels, lamports, rent, transaction fees and signatures are not modelled. A transaction is one instruction, executed atomically; a failed one changes nothing.
- Which error Anchor or the token program reports first when several checks fail is not claimed. The check functions fix one order, and only success versus failure is stated.
- Token-2022 internals (account owners, frozen state, extensions) are reduced to balance, allowance, supply and existence updates.
- The fault model: a faulted address fails every fetch with one fixed message, and faults do not change during a call. Transient or changing RPC failures are not modelled.
- `getTokenAccountBalance` in `mintAweToken` only logs, so it is left out.
- TokenClient.MintAweToken: states only what a success implies; failures are the rethrown errors of its steps.

=== FILE: accounting.dfy ===
/** What the agent instructions promise over time: the counter moves exactly
    when the fee moves, and a run of successful calls with a fixed price
    leaves `num_agents` equal to the number of calls and the collector
    richer by that many fees. */
module AgentAccounting {
  import opened Results
  import opened Addresses
  import opened Ledger
  import opened AweProgram

  /** The instruction a caller sends for an agent: `init_agent_creator` when no
      agent-creator account exists yet, `create_agent` otherwise. */
  function AgentStep(s: Store, a: AgentAccounts): (r: Result<Store, Error>)
    requires HasRoomForAgent(s, a)
  {
    if IsCreator(s, a.creator) then CreateAgent(s, a) else InitAgentCreator(s, a)
  }

  /** `num_agents` changes if and only if the fee was paid: the counter is
      written after the `?` of the transfer, and a failed transfer rolls
      the whole instruction back. */
  lemma CounterMovesIffFeePaid(s: Store, a: AgentAccounts)
    requires HasRoomForAgent(s, a)
    requires a.sender != a.collector
    requires IsMetadata(s, a.metadata) && AgentPrice(s, a) > 0
    ensures var s' := Apply(s, AgentStep(s, a));
            NumAgents(s', a.creator) != NumAgents(s, a.creator) <==> FeePaid(s, s', a, AgentPrice(s, a))
  {
  }

  /** Consecutive stores of a run in which every agent call succeeded. */
  predicate SuccessfulRun(ss: seq<Store>, a: AgentAccounts) {
    forall i :: 0 <= i < |ss| - 1 ==> HasRoomForAgent(ss[i], a) && AgentStep(ss[i], a) == Ok(ss[i + 1])
  }

  /** What one successful agent call does to the accounts it touches: one
      more agent, the metadata kept, one fee moved from sender to collector. */
  predicate AgentCallEffect(s: Store, s': Store, a: AgentAccounts) {
    && IsMetadata(s, a.metadata)
    && IsCreator(s', a.creator) && NumAgents(s', a.creator) == NumAgents(s, a.creator) + 1
    && IsMetadata(s', a.metadata) && s'[a.metadata] == s[a.metadata]
    && FeePaid(s, s', a, AgentPrice(s, a))
  }

  /** Every successful agent call has that effect. */
  lemma AgentStepEffect(s: Store, s': Store, a: AgentAccounts)
    requires HasRoomForAgent(s, a) && AgentStep(s, a) == Ok(s')
    requires a.sender != a.collector
    ensures AgentCallEffect(s, s', a)
  {
  }

  /** Consecutive stores each reached from the one before by an agent call. */
  predicate EffectChain(ss: seq<Store>, a: AgentAccounts) {
    forall i :: 0 <= i < |ss| - 1 ==> AgentCallEffect(ss[i], ss[i + 1], a)
  }

  /** A prefix of such a chain is one too. */
  lemma EffectChainPrefix(ss: seq<Store>, a: AgentAccounts, n: nat)
    requires EffectChain(ss, a) && n <= |ss|
    ensures EffectChain(ss[..n], a)
  {
    var prefix := ss[..n];
    forall i | 0 <= i < |prefix| - 1
      ensures AgentCallEffect(prefix[i], prefix[i + 1], a)
    {
      assert prefix[i] == ss[i] && prefix[i + 1] == ss[i + 1];
    }
  }

  /** Counters of consecutive calls add up: from a store without an
      agent-creator account, n calls leave `num_agents` at n and the metadata
      as it was. */
  lemma {:induction false} EffectsAccumulate(ss: seq<Store>, a: AgentAccounts)
    requires |ss| >= 2 && EffectChain(ss, a)
    requires !IsCreator(ss[0], a.creator)
    ensures IsMetadata(ss[0], a.metadata)
    ensures IsCreator(ss[|ss| - 1], a.creator)
    ensures NumAgents(ss[|ss| - 1], a.creator) == |ss| - 1
    ensures IsMetadata(ss[|ss| - 1], a.metadata) && ss[|ss| - 1][a.metadata] == ss[0][a.metadata]
  {
    var n := |ss| - 1;
    assert AgentCallEffect(ss[n - 1], ss[n], a);
    if n == 1 {
      assert AgentCallEffect(ss[0], ss[1], a);
    } else {
      EffectChainPrefix(ss, a, n);
      EffectsAccumulate(ss[..n], a);
      assert ss[..n][n - 1] == ss[n - 1];
    }
  }

  /** Fees of consecutive calls add up: n calls at an unchanged price move n
      fees from sender to collector. */
  lemma {:induction false} FeesAccumulate(ss: seq<Store>, a: AgentAccounts)
    requires |ss| >= 2 && EffectChain(ss, a)
    requires IsMetadata(ss[0], a.metadata)
    requires forall i :: 0 <= i < |ss| ==> IsMetadata(ss[i], a.metadata) && ss[i][a.metadata] == ss[0][a.metadata]
    ensures Balance(ss[|ss| - 1], a.collector) == Balance(ss[0], a.collector) + (|ss| - 1) * AgentPrice(ss[0], a)
    ensures Balance(ss[|ss| - 1], a.sender) + (|ss| - 1) * AgentPrice(ss[0], a) == Balance(ss[0], a.sender)
  {
    var n := |ss| - 1;
    var p := AgentPrice(ss[0], a);
    assert AgentCallEffect(ss[n - 1], ss[n], a);
    assert AgentPrice(ss[n - 1], a) == p;
    if n > 1 {
      EffectChainPrefix(ss, a, n);
      var prefix := ss[..n];
      forall i | 0 <= i < |prefix|
        ensures IsMetadata(prefix[i], a.metadata) && prefix[i][a.metadata] == prefix[0][a.metadata]
      {
        assert prefix[i] == ss[i];
      }
      FeesAccumulate(prefix, a);
      assert prefix[n - 1] == ss[n - 1] && prefix[0] == ss[0];
      assert (n - 1) * p + p == n * p;
    }
  }

  /** After n successful calls starting without an agent-creator account,
      `num_agents` is n, the metadata (and so the price) is unchanged, and
      n fees moved from sender to collector. */
  lemma SuccessfulRunAccounting(ss: seq<Store>, a: AgentAccounts)
    requires |ss| >= 2 && SuccessfulRun(ss, a)
    requires a.creator !in ss[0]
    requires a.sender != a.collector
    ensures IsMetadata(ss[0], a.metadata)
    ensures IsCreator(ss[|ss| - 1], a.creator)
    ensures NumAgents(ss[|ss| - 1], a.creator) == |ss| - 1
    ensures IsMetadata(ss[|ss| - 1], a.metadata) && ss[|ss| - 1][a.metadata] == ss[0][a.metadata]
    ensures Balance(ss[|ss| - 1], a.collector) == Balance(ss[0], a.collector) + (|ss| - 1) * AgentPrice(ss[0], a)
    ensures Balance(ss[|ss| - 1], a.sender) + (|ss| - 1) * AgentPrice(ss[0], a) == Balance(ss[0], a.sender)
  {
    forall i | 0 <= i < |ss| - 1
      ensures AgentCallEffect(ss[i], ss[i + 1], a)
    {
      AgentStepEffect(ss[i], ss[i + 1], a);
    }
    EffectsAccumulate(ss, a);
    forall k | 0 <= k < |ss|
      ensures IsMetadata(ss[k], a.metadata) && ss[k][a.metadata] == ss[0][a.metadata]
    {
      if k > 0 {
        EffectChainPrefix(ss, a, k + 1);
        EffectsAccumulate(ss[..k + 1], a);
        assert ss[..k + 1][k] == ss[k] && ss[..k + 1][0] == ss[0];
      }
    }
    FeesAccumulate(ss, a);
  }
}

=== FILE: addresses.dfy ===
/** Account addresses. A program-derived address (PDA) is modelled by the
    constructor `Pda(program, seeds)`, so two derivations agree exactly when
    their program and seeds agree: the collision resistance of
    `findProgramAddressSync` is taken as given, and bump seeds are left out. */
module Addresses {
  import opened Results

  datatype Address =
    | Wallet(id: nat)         // an ed25519 public key held by a keypair (users, mints)
    | Program(name: string)   // a deployed program id
    | Pda(program: Address, seeds: seq<Seed>)

  datatype Seed = Label(text: string) | KeyOf(key: Address)

  /** Derived addresses are pushed off the ed25519 curve by their bump;
      keypair and program addresses are on it. */
  predicate OnCurve(a: Address) {
    !a.Pda?
  }

  const AweProgramId: Address := Program("awe")
  const Token2022ProgramId: Address := Program("token-2022")
  const AssociatedTokenProgramId: Address := Program("associated-token")

  /** The `awe_metadata` account of `user`: seeds ("awe_metadata", user). */
  function MetadataAddress(user: Address): (a: Address)
    ensures !OnCurve(a) && a.program == AweProgramId && !IsAgentCreatorAddress(a)
  {
    Pda(AweProgramId, [Label("awe_metadata"), KeyOf(user)])
  }

  /** The agent-creator account of `user` under one metadata account:
      seeds ("agent_creator", metadata, user). */
  function AgentCreatorAddress(metadata: Address, user: Address): (a: Address)
    ensures !OnCurve(a) && a.program == AweProgramId && IsAgentCreatorAddress(a)
  {
    Pda(AweProgramId, [Label("agent_creator"), KeyOf(metadata), KeyOf(user)])
  }

  /** The program's transfer authority: seeds ("delegate"). */
  function DelegateAddress(): (a: Address)
    ensures !OnCurve(a) && a.program == AweProgramId
  {
    Pda(AweProgramId, [Label("delegate")])
  }

  /** The associated-token program's PDA for (mint, owner): seeds
      (owner, token program, mint), as the associated-token program derives it. */
  function DeriveAssociatedTokenAddress(mint: Address, owner: Address): (a: Address)
    ensures !OnCurve(a) && a.program == AssociatedTokenProgramId
  {
    Pda(AssociatedTokenProgramId, [KeyOf(owner), KeyOf(Token2022ProgramId), KeyOf(mint)])
  }

  /** Why the client cannot derive an associated-token address. */
  datatype DeriveError = TokenOwnerOffCurve

  /** `getAssociatedTokenAddress(mint, owner, false, token-2022, associated-token)`:
      with `allowOwnerOffCurve = false` an owner off the curve is refused,
      otherwise the result is the program's derivation. */
  function GetAssociatedTokenAddress(mint: Address, owner: Address): (r: Result<Address, DeriveError>)
    ensures r.Ok? <==> OnCurve(owner)
    ensures r.Ok? ==> r.value == DeriveAssociatedTokenAddress(mint, owner)
  {
    if !OnCurve(owner) then Err(TokenOwnerOffCurve)
    else Ok(DeriveAssociatedTokenAddress(mint, owner))
  }

  /** `a` is the associated token address of some (mint, owner) pair. */
  predicate IsAssociatedTokenAddress(a: Address) {
    && a.Pda?
    && a.program == AssociatedTokenProgramId
    && |a.seeds| == 3
    && a.seeds[0].KeyOf?
    && a.seeds[1] == KeyOf(Token2022ProgramId)
    && a.seeds[2].KeyOf?
  }

  /** `a` is the agent-creator address of some (metadata, user) pair. */
  predicate IsAgentCreatorAddress(a: Address) {
    && a.Pda?
    && a.program == AweProgramId
    && |a.seeds| == 3
    && a.seeds[0] == Label("agent_creator")
    && a.seeds[1].KeyOf?
    && a.seeds[2].KeyOf?
  }

  /** The owner and mint an associated token address was derived from. */
  function AtaOwner(a: Address): Address
    requires IsAssociatedTokenAddress(a)
  {
    a.seeds[0].key
  }

  function AtaMint(a: Address): Address
    requires IsAssociatedTokenAddress(a)
  {
    a.seeds[2].key
  }

  /** Derivation and decomposition are inverse: the address recovers the
      (mint, owner) pair it came from, and every such address is derived. */
  lemma AssociatedTokenAddressRoundTrip(mint: Address, owner: Address, a: Address)
    ensures DeriveAssociatedTokenAddress(mint, owner) == a <==>
            (IsAssociatedTokenAddress(a) && AtaMint(a) == mint && AtaOwner(a) == owner)
  {
    if IsAssociatedTokenAddress(a) && AtaMint(a) == mint && AtaOwner(a) == owner {
      assert a.seeds == [KeyOf(owner), KeyOf(Token2022ProgramId), KeyOf(mint)];
    }
  }

  /** The PDAs of the awe program never coincide: a metadata account, an
      agent-creator account and the delegate live at pairwise different
      addresses, and each derivation determines its seeds. */
  lemma ProgramAddressesDistinct(user: Address, user': Address, metadata: Address)
    ensures MetadataAddress(user) == MetadataAddress(user') <==> user == user'
    ensures MetadataAddress(user) != AgentCreatorAddress(metadata, user')
    ensures MetadataAddress(user) != DelegateAddress()
    ensures AgentCreatorAddress(metadata, user) != DelegateAddress()
  {
    if MetadataAddress(user) == MetadataAddress(user') {
      assert MetadataAddress(user).seeds[1] == MetadataAddress(user').seeds[1];
    }
    assert MetadataAddress(user).seeds[0] != AgentCreatorAddress(metadata, user').seeds[0];
  }
}

=== FILE: agent_client.dfy ===
/** client/awe_agent.ts: looking up the caller's agent-creator account and
    the `createAgent` flow that pays for one more agent. */
module AgentClient {
  import opened Results
  import opened Addresses
  import opened Ledger
  import opened AweProgram
  import opened Instructions
  import opened Rpc
  import opened MetadataClient
  import opened TokenClient
  import Text

  const MetadataMissingMessage: string := "Awe metadata account not initialized"
  const NotEnoughAweMessage: string := "Not enough AWE to pay for the agent creation"
  /** What reading `numAgents` of a `null` re-fetch throws. */
  const NullCreatorMessage: string := "Cannot read properties of null (reading 'numAgents')"

  /** `program.account.agentCreator.fetch`: the account decoded as an agent creator. */
  function FetchCreator(n: Node, a: Address): (r: Result<AgentCreator, string>)
    ensures r.Ok? <==> a !in n.faults && IsCreator(n.store, a)
    ensures r.Ok? ==> r.value == n.store[a].creator
  {
    var acct :- FetchAccount(n, a);
    if acct.CreatorAccount? then Ok(acct.creator) else Err(WrongAccountMessage)
  }

  /** `getAgentCreatorAccount`: the account at the PDA ("agent_creator",
      metadata, provider), `null` exactly when the fetch error says the
      account does not exist, any other error rethrown. */
  function GetAgentCreatorAccount(n: Node, metadata: Address, provider: Address)
    : (r: Result<Option<AgentCreator>, ClientError>)
    ensures var a := AgentCreatorAddress(metadata, provider);
            && (r.Ok? && r.value.Some? <==> a !in n.faults && IsCreator(n.store, a))
            && (r.Ok? && r.value.Some? ==> r.value.value == n.store[a].creator)
            && (a !in n.faults ==> (r == Ok(None) <==> a !in n.store))
  {
    MessagesClassified();
    NullIfMissing(FetchCreator(n, AgentCreatorAddress(metadata, provider)))
  }
  /** How `GetAgentCreatorAccount` sorts a failed fetch: `null` exactly when the
      error message says the account does not exist (or nothing is there
      without a fault), and every other error rethrown as thrown. */
  lemma CreatorLookupClassified(n: Node, metadata: Address, provider: Address)
    ensures var r := GetAgentCreatorAccount(n, metadata, provider);
            var a := AgentCreatorAddress(metadata, provider);
            && (r == Ok(None) <==>
                  if a in n.faults then Text.Contains(n.faults[a], AccountMissingPattern) else a !in n.store)
            && (r.Err? ==> r.error.Thrown? && !Text.Contains(r.error.message, AccountMissingPattern))
  {
    MessagesClassified();
  }


  /** The lookup only depends on the fault map and the account at the PDA. */
  lemma CreatorLookupDependsOnPda(n: Node, n': Node, metadata: Address, provider: Address)
    requires n.faults == n'.faults
    requires var c := AgentCreatorAddress(metadata, provider);
             && (c in n.store <==> c in n'.store)
             && (c in n.store ==> n.store[c] == n'.store[c])
    ensures GetAgentCreatorAccount(n, metadata, provider) == GetAgentCreatorAccount(n', metadata, provider)
  {
  }

  /** A step that only changes the accounts in `changed` leaves the
      agent-creator PDA, and so the lookup, as it was. */
  lemma CreatorUntouched(n: Node, n': Node, metadata: Address, provider: Address, changed: set<Address>)
    requires n.faults == n'.faults
    requires SameExcept(n.store, n'.store, changed)
    requires AgentCreatorAddress(metadata, provider) !in changed
    ensures GetAgentCreatorAccount(n, metadata, provider) == GetAgentCreatorAccount(n', metadata, provider)
    ensures var c := AgentCreatorAddress(metadata, provider);
            && (c in n.store <==> c in n'.store)
            && (c in n.store ==> n.store[c] == n'.store[c])
  {
    var c := AgentCreatorAddress(metadata, provider);
    assert c in n.store ==> c in n.store.Keys - changed;
    assert c in n'.store ==> c in n'.store.Keys - changed;
    CreatorLookupDependsOnPda(n, n', metadata, provider);
  }

  /** The accounts `createAgent` passes for metadata `m` at `metadata`,
      paying from `sender`. */
  function ClientAgentAccounts(provider: Address, metadata: Address, m: AweMetadata, sender: Address): AgentAccounts {
    AgentAccounts(provider, metadata, m.aweMint, m.aweCollector,
                  AgentCreatorAddress(metadata, provider), sender, DelegateAddress())
  }

  /** The instruction `createAgent` chooses: `initAgentCreator` when the
      lookup found no agent-creator account, `createAgent` otherwise. */
  function ChooseAgentInstruction(existing: Option<AgentCreator>, a: AgentAccounts): (ix: Instruction)
  {
    if existing.None? then InitAgentCreatorIx(a) else CreateAgentIx(a)
  }

  /** The instructions sent after the node `n`. */
  function SentSince(n: Node, after: Node): seq<Instruction> {
    if |n.sent| <= |after.sent| then after.sent[|n.sent|..] else []
  }

  /** The metadata `createAgent` works with, when the lookup finds it. */
  predicate MetadataFound(n: Node, metadata: Address) {
    metadata !in n.faults && IsMetadata(n.store, metadata)
  }

  /** The approval `createAgent` sends: the delegate PDA may move exactly
      the agent price out of `ata`, checked against 9 decimals. */
  function AgentApproval(provider: Address, m: AweMetadata, ata: Address): Instruction {
    ApproveCheckedIx(ata, m.aweMint, DelegateAddress(), provider, m.agentPrice, AweMintDecimals)
  }

  /** Every remote step of the agent call goes through from `node`: the
      approval succeeds, the creator lookup succeeds, the instruction it
      chooses executes, and the agent-creator PDA can be re-fetched. */
  predicate AgentCallGoesThrough(node: Node, provider: Address, metadata: Address, m: AweMetadata, ata: Address) {
    var approved := Approve(node, m.aweMint, ata, DelegateAddress(), m.agentPrice, provider);
    var existing := GetAgentCreatorAccount(node, metadata, provider);
    && approved.result.Ok?
    && existing.Ok?
    && AgentCreatorAddress(metadata, provider) !in node.faults
    && var ix := ChooseAgentInstruction(existing.value, ClientAgentAccounts(provider, metadata, m, ata));
       CanExecute(approved.node.store, ix) && Execute(approved.node.store, ix).Ok?
  }

  /** The tail of `createAgent` once the provider's token account `ata` with
      `balance` is known: throw unless `balance` covers the price, and
      otherwise go on as `ApproveAndSendAgent`. */
  method FinishAgent(node: Node, provider: Address, metadata: Address, m: AweMetadata,
                     ata: Address, balance: nat) returns (out: Step<U8>)
    requires ata != AgentCreatorAddress(metadata, provider)
    requires var c := AgentCreatorAddress(metadata, provider);
             IsCreator(node.store, c) ==> node.store[c].creator.numAgents < 255
    ensures out.node.faults == node.faults
    ensures balance < m.agentPrice ==> out == Step(node, Err(Thrown(NotEnoughAweMessage)))
    ensures var tail := SentSince(node, out.node);
            var existing := GetAgentCreatorAccount(node, metadata, provider);
            && out.node.sent == node.sent + tail
            && |tail| <= 2
            && (|tail| >= 1 ==> balance >= m.agentPrice && tail[0] == AgentApproval(provider, m, ata))
            && (|tail| == 2 ==>
                  && existing.Ok?
                  && tail[1] == ChooseAgentInstruction(existing.value, ClientAgentAccounts(provider, metadata, m, ata)))
            && (out.result.Ok? ==> |tail| == 2)
    ensures balance >= m.agentPrice ==> |SentSince(node, out.node)| >= 1
    ensures balance >= m.agentPrice
            && Approve(node, m.aweMint, ata, DelegateAddress(), m.agentPrice, provider).result.Ok?
            && GetAgentCreatorAccount(node, metadata, provider).Ok? ==>
              |SentSince(node, out.node)| == 2
    ensures out.result.Ok? ==>
              var existing := GetAgentCreatorAccount(node, metadata, provider);
              && existing.Ok?
              && (existing.value.None? ==> out.result.value == 1)
              && (existing.value.Some? ==> out.result.value == existing.value.value.numAgents + 1)
    ensures balance >= m.agentPrice && AgentCallGoesThrough(node, provider, metadata, m, ata) ==> out.result.Ok?
  {
    if balance < m.agentPrice {
      return Step(node, Err(Thrown(NotEnoughAweMessage)));
    }
    out := ApproveAndSendAgent(node, provider, metadata, m, ata);
  }

  /** Approve the delegate PDA for exactly the price, choose and send the
      agent instruction, and re-fetch the counter. The approval is always
      sent; the agent instruction follows whenever the approval and the
      creator lookup succeed. */
  method ApproveAndSendAgent(node: Node, provider: Address, metadata: Address, m: AweMetadata,
                             ata: Address) returns (out: Step<U8>)
    requires ata != AgentCreatorAddress(metadata, provider)
    requires var c := AgentCreatorAddress(metadata, provider);
             IsCreator(node.store, c) ==> node.store[c].creator.numAgents < 255
    ensures out.node.faults == node.faults
    ensures var tail := SentSince(node, out.node);
            var existing := GetAgentCreatorAccount(node, metadata, provider);
            && out.node.sent == node.sent + tail
            && 1 <= |tail| <= 2
            && tail[0] == AgentApproval(provider, m, ata)
            && (|tail| == 2 ==>
                  && existing.Ok?
                  && tail[1] == ChooseAgentInstruction(existing.value, ClientAgentAccounts(provider, metadata, m, ata)))
            && (out.result.Ok? ==> |tail| == 2)
    ensures Approve(node, m.aweMint, ata, DelegateAddress(), m.agentPrice, provider).result.Ok?
            && GetAgentCreatorAccount(node, metadata, provider).Ok? ==>
              |SentSince(node, out.node)| == 2
    ensures AgentCallGoesThrough(node, provider, metadata, m, ata) ==> out.result.Ok?
    ensures out.result.Ok? ==>
              var existing := GetAgentCreatorAccount(node, metadata, provider);
              && existing.Ok?
              && (existing.value.None? ==> out.result.value == 1)
              && (existing.value.Some? ==> out.result.value == existing.value.value.numAgents + 1)
  {
    var creator := AgentCreatorAddress(metadata, provider);
    var approved := Approve(node, m.aweMint, ata, DelegateAddress(), m.agentPrice, provider);
    if approved.result.Err? {
      return Step(approved.node, Err(approved.result.error));
    }
    CreatorUntouched(node, approved.node, metadata, provider, {ata});
    var existing := GetAgentCreatorAccount(approved.node, metadata, provider);
    if existing.Err? {
      return Step(approved.node, Err(existing.error));
    }
    var ix := ChooseAgentInstruction(existing.value, ClientAgentAccounts(provider, metadata, m, ata));
    var sent := Send(approved.node, ix);
    if sent.result.Err? {
      return Step(sent.node, Err(sent.result.error));
    }
    var after := GetAgentCreatorAccount(sent.node, metadata, provider);
    if after.Err? {
      return Step(sent.node, Err(after.error));
    }
    if after.value.None? {
      return Step(sent.node, Err(Thrown(NullCreatorMessage)));
    }
    return Step(sent.node, Ok(after.value.value.numAgents));
  }

  /** The client's choice meets the program's constraints. In a well-formed
      store whose metadata account at `metadata` holds `m`, once the
      provider's associated token account covers the price and approves the
      delegate PDA for exactly the price, the instruction `createAgent` picks
      from the creator lookup (`init` when the PDA is empty) passes every
      account constraint and pays the fee, unless the collector's balance
      would overflow `u64`. */
  lemma ClientChoiceSucceeds(s: Store, provider: Address, metadata: Address, m: AweMetadata, ata: Address)
    requires WellFormed(s) && IsMetadata(s, metadata) && m == s[metadata].metadata
    requires ata == DeriveAssociatedTokenAddress(m.aweMint, provider)
    requires IsTokenAccount(s, ata) && Balance(s, ata) >= m.agentPrice
    requires s[ata].token.delegate == Some(DelegateAddress()) && s[ata].token.delegatedAmount == m.agentPrice
    requires ata == m.aweCollector || Balance(s, m.aweCollector) + m.agentPrice < TwoTo64
    requires var c := AgentCreatorAddress(metadata, provider);
             IsCreator(s, c) ==> s[c].creator.numAgents < 255
    ensures var c := AgentCreatorAddress(metadata, provider);
            var existing := if c in s then Some(s[c].creator) else None;
            var ix := ChooseAgentInstruction(existing, ClientAgentAccounts(provider, metadata, m, ata));
            && CanExecute(s, ix)
            && Execute(s, ix).Ok?
  {
    var c := AgentCreatorAddress(metadata, provider);
    var a := ClientAgentAccounts(provider, metadata, m, ata);
    assert IsAssociatedTokenAddress(ata) by {
      AssociatedTokenAddressRoundTrip(m.aweMint, provider, ata);
    }
    assert IsTokenAccountOf(s, ata, m.aweMint);
    assert c in s ==> s[c].CreatorAccount?;
    assert AgentConstraints(s, a, c !in s);
    assert PayAgentFee(s, a).Ok?;
  }

  /** What `createAgent` may send, once the metadata `m` is known: the
      creation of the provider's token account, the approval (only when the
      account's balance covers the price) and the agent instruction the
      creator lookup chose. */
  predicate PlannedEntry(n: Node, provider: Address, metadata: Address, m: AweMetadata, ix: Instruction) {
    var ata := DeriveAssociatedTokenAddress(m.aweMint, provider);
    var existing := GetAgentCreatorAccount(n, metadata, provider);
    || ix == CreateAtaInstruction(provider, m.aweMint, provider)
    || (ix == AgentApproval(provider, m, ata) && Balance(n.store, ata) >= m.agentPrice)
    || (existing.Ok? &&
          ix == ChooseAgentInstruction(existing.value, ClientAgentAccounts(provider, metadata, m, ata)))
  }

  /** `createAgent` once the metadata `m` stored at `metadata` is known:
      resolve or create the provider's associated token account, throw unless
      it holds at least the agent price, approve the delegate PDA for exactly
      that price, send `initAgentCreator` if no agent-creator account exists
      and `createAgent` otherwise, and return the re-fetched `numAgents`. */
  method PayForAgent(n: Node, provider: Address, metadata: Address, m: AweMetadata) returns (out: Step<U8>)
    requires MetadataFound(n, metadata) && m == n.store[metadata].metadata
    requires var c := AgentCreatorAddress(metadata, provider);
             IsCreator(n.store, c) ==> n.store[c].creator.numAgents < 255
    ensures out.node.faults == n.faults
    ensures |n.sent| <= |out.node.sent| && out.node.sent[..|n.sent|] == n.sent
    ensures var ata := DeriveAssociatedTokenAddress(m.aweMint, provider);
            OnCurve(provider) && GetAccount(n, ata) == Err(TokenAccountNotFound) ==>
              |SentSince(n, out.node)| >= 1 &&
              SentSince(n, out.node)[0] == CreateAtaInstruction(provider, m.aweMint, provider)
    ensures var log := SentSince(n, out.node);
            forall i :: 0 <= i < |log| ==> PlannedEntry(n, provider, metadata, m, log[i])
    ensures var ata := DeriveAssociatedTokenAddress(m.aweMint, provider);
            Balance(n.store, ata) < m.agentPrice ==>
              && out.result.Err?
              && (SentSince(n, out.node) == [] ||
                  SentSince(n, out.node) == [CreateAtaInstruction(provider, m.aweMint, provider)])
    ensures out.result.Ok? ==>
              var ata := DeriveAssociatedTokenAddress(m.aweMint, provider);
              var existing := GetAgentCreatorAccount(n, metadata, provider);
              var log := SentSince(n, out.node);
              && existing.Ok?
              && |log| >= 2
              && log[|log| - 2] == AgentApproval(provider, m, ata)
              && log[|log| - 1] == ChooseAgentInstruction(existing.value, ClientAgentAccounts(provider, metadata, m, ata))
              && (existing.value.None? ==> out.result.value == 1)
              && (existing.value.Some? ==> out.result.value == existing.value.value.numAgents + 1)
    ensures var ata := DeriveAssociatedTokenAddress(m.aweMint, provider);
            && OnCurve(provider)
            && (GetAccount(n, ata).Ok? || (GetAccount(n, ata) == Err(TokenAccountNotFound) && IsMint(n.store, m.aweMint)))
            && Balance(n.store, ata) >= m.agentPrice ==>
              AgentApproval(provider, m, ata) in SentSince(n, out.node)
    ensures var ata := DeriveAssociatedTokenAddress(m.aweMint, provider);
            var existing := GetAgentCreatorAccount(n, metadata, provider);
            && OnCurve(provider) && GetAccount(n, ata).Ok? && Balance(n.store, ata) >= m.agentPrice
            && Approve(n, m.aweMint, ata, DelegateAddress(), m.agentPrice, provider).result.Ok?
            && existing.Ok? ==>
              SentSince(n, out.node) ==
                [AgentApproval(provider, m, ata),
                 ChooseAgentInstruction(existing.value, ClientAgentAccounts(provider, metadata, m, ata))]
    ensures var ata := DeriveAssociatedTokenAddress(m.aweMint, provider);
            && OnCurve(provider) && GetAccount(n, ata).Ok? && Balance(n.store, ata) >= m.agentPrice
            && AgentCallGoesThrough(n, provider, metadata, m, ata) ==>
              out.result.Ok?
  {
    var resolved := GetOrCreateAssociatedTokenAccount(n, m.aweMint, provider, provider);
    if resolved.result.Err? {
      return Step(resolved.node, Err(resolved.result.error));
    }
    var node := resolved.node;
    var (ata, providerAccount) := resolved.result.value;
    var creator := AgentCreatorAddress(metadata, provider);
    assert creator != ata;
    CreatorUntouched(n, node, metadata, provider, {ata});
    assert providerAccount.amount == Balance(n.store, ata);
    out := PayFromAccount(n, node, provider, metadata, m, ata, providerAccount.amount);
  }

  /** The rest of `createAgent` once the provider's associated token account
      `ata` is resolved, `node` being the node after that step (nothing or
      the account's creation sent) and `balance` the account's balance. */
  method PayFromAccount(n: Node, node: Node, provider: Address, metadata: Address, m: AweMetadata,
                        ata: Address, balance: nat) returns (out: Step<U8>)
    requires ata == DeriveAssociatedTokenAddress(m.aweMint, provider)
    requires node.faults == n.faults
    requires node.sent == n.sent || node.sent == n.sent + [CreateAtaInstruction(provider, m.aweMint, provider)]
    requires node.sent == n.sent ==> node == n
    requires GetAgentCreatorAccount(node, metadata, provider) == GetAgentCreatorAccount(n, metadata, provider)
    requires balance == Balance(n.store, ata)
    requires var c := AgentCreatorAddress(metadata, provider);
             IsCreator(node.store, c) ==> node.store[c].creator.numAgents < 255
    ensures out.node.faults == n.faults
    ensures |node.sent| <= |out.node.sent| && out.node.sent[..|node.sent|] == node.sent
    ensures |n.sent| <= |out.node.sent| && out.node.sent[..|n.sent|] == n.sent
    ensures var log := SentSince(n, out.node);
            forall i :: 0 <= i < |log| ==> PlannedEntry(n, provider, metadata, m, log[i])
    ensures balance < m.agentPrice ==>
              && out.result.Err?
              && (SentSince(n, out.node) == [] ||
                  SentSince(n, out.node) == [CreateAtaInstruction(provider, m.aweMint, provider)])
    ensures out.result.Ok? ==>
              var existing := GetAgentCreatorAccount(n, metadata, provider);
              var log := SentSince(n, out.node);
              && existing.Ok?
              && |log| >= 2
              && log[|log| - 2] == AgentApproval(provider, m, ata)
              && log[|log| - 1] == ChooseAgentInstruction(existing.value, ClientAgentAccounts(provider, metadata, m, ata))
              && (existing.value.None? ==> out.result.value == 1)
              && (existing.value.Some? ==> out.result.value == existing.value.value.numAgents + 1)
    ensures balance >= m.agentPrice ==> AgentApproval(provider, m, ata) in SentSince(n, out.node)
    ensures var existing := GetAgentCreatorAccount(n, metadata, provider);
            && node.sent == n.sent && balance >= m.agentPrice
            && Approve(n, m.aweMint, ata, DelegateAddress(), m.agentPrice, provider).result.Ok?
            && existing.Ok? ==>
              SentSince(n, out.node) ==
                [AgentApproval(provider, m, ata),
                 ChooseAgentInstruction(existing.value, ClientAgentAccounts(provider, metadata, m, ata))]
    ensures balance >= m.agentPrice && AgentCallGoesThrough(node, provider, metadata, m, ata) ==> out.result.Ok?
  {
    assert ata != AgentCreatorAddress(metadata, provider);
    out := FinishAgent(node, provider, metadata, m, ata, balance);
    PaidLog(n, node, out.node, provider, metadata, m, ata, balance, GetAgentCreatorAccount(n, metadata, provider));
  }

  /** The log of `createAgent` after the metadata is known, from the log of
      the token-account step and that of `FinishAgent`: every entry is
      planned, a short balance sends at most the account creation, a
      covering one sends the approval, and a full tail ends with the
      approval and the chosen instruction. */
  lemma PaidLog(n: Node, node: Node, after: Node, provider: Address, metadata: Address, m: AweMetadata,
                ata: Address, balance: nat, existing: Result<Option<AgentCreator>, ClientError>)
    requires ata == DeriveAssociatedTokenAddress(m.aweMint, provider)
    requires node.sent == n.sent || node.sent == n.sent + [CreateAtaInstruction(provider, m.aweMint, provider)]
    requires balance == Balance(n.store, ata)
    requires existing == GetAgentCreatorAccount(n, metadata, provider)
    requires var tail := SentSince(node, after);
             && after.sent == node.sent + tail
             && |tail| <= 2
             && (|tail| >= 1 ==> balance >= m.agentPrice && tail[0] == AgentApproval(provider, m, ata))
             && (|tail| == 2 ==>
                   && existing.Ok?
                   && tail[1] == ChooseAgentInstruction(existing.value, ClientAgentAccounts(provider, metadata, m, ata)))
             && (balance >= m.agentPrice ==> |tail| >= 1)
    ensures |n.sent| <= |after.sent| && after.sent[..|n.sent|] == n.sent
    ensures var log := SentSince(n, after);
            forall i :: 0 <= i < |log| ==> PlannedEntry(n, provider, metadata, m, log[i])
    ensures balance < m.agentPrice ==>
              SentSince(n, after) == [] || SentSince(n, after) == [CreateAtaInstruction(provider, m.aweMint, provider)]
    ensures balance >= m.agentPrice ==> AgentApproval(provider, m, ata) in SentSince(n, after)
    ensures |SentSince(node, after)| == 2 ==>
              var log := SentSince(n, after);
              && existing.Ok?
              && |log| >= 2
              && log[|log| - 2] == AgentApproval(provider, m, ata)
              && log[|log| - 1] == ChooseAgentInstruction(existing.value, ClientAgentAccounts(provider, metadata, m, ata))
    ensures node.sent == n.sent && |SentSince(node, after)| == 2 ==>
              existing.Ok? &&
              SentSince(n, after) ==
                [AgentApproval(provider, m, ata),
                 ChooseAgentInstruction(existing.value, ClientAgentAccounts(provider, metadata, m, ata))]
  {
    var agent := if existing.Ok?
                 then Some(ChooseAgentInstruction(existing.value, ClientAgentAccounts(provider, metadata, m, ata)))
                 else None;
    ComposedLog(n, node, after, CreateAtaInstruction(provider, m.aweMint, provider),
                AgentApproval(provider, m, ata), agent, balance >= m.agentPrice);
    var log := SentSince(n, after);
    forall i | 0 <= i < |log|
      ensures PlannedEntry(n, provider, metadata, m, log[i])
    {
    }
  }

  /** Gluing the log of the token-account step (nothing or one creation) to
      the log of `FinishAgent` (nothing, the approval, or the approval and the
      agent instruction). */
  lemma ComposedLog(n: Node, node: Node, after: Node, create: Instruction, approve: Instruction,
                    agent: Option<Instruction>, covered: bool)
    requires node.sent == n.sent || node.sent == n.sent + [create]
    requires var tail := SentSince(node, after);
             && after.sent == node.sent + tail
             && |tail| <= 2
             && (|tail| >= 1 ==> covered && tail[0] == approve)
             && (|tail| == 2 ==> agent.Some? && tail[1] == agent.value)
    ensures var log := SentSince(n, after);
            && |n.sent| <= |after.sent| && after.sent[..|n.sent|] == n.sent
            && (forall i :: 0 <= i < |log| ==>
                  log[i] == create || (log[i] == approve && covered) || (agent.Some? && log[i] == agent.value))
            && (!covered ==> log == [] || log == [create])
            && (|SentSince(node, after)| == 2 ==>
                  |log| >= 2 && log[|log| - 2] == approve && agent.Some? && log[|log| - 1] == agent.value)
            && (|SentSince(node, after)| >= 1 ==> approve in log)
            && (node.sent == n.sent && |SentSince(node, after)| == 2 ==>
                  agent.Some? && log == [approve, agent.value])
  {
    var tail := SentSince(node, after);
    var pre := SentSince(n, node);
    assert node.sent == n.sent + pre;
    assert after.sent == n.sent + (pre + tail);
    assert SentSince(n, after) == pre + tail;
    ComposedEntries(pre, tail, create, approve, agent, covered);
  }

  /** `ComposedLog` on the logs themselves: `pre` is what the token-account
      step sent, `tail` what followed it. */
  lemma ComposedEntries(pre: seq<Instruction>, tail: seq<Instruction>, create: Instruction, approve: Instruction,
                        agent: Option<Instruction>, covered: bool)
    requires pre == [] || pre == [create]
    requires |tail| <= 2
    requires |tail| >= 1 ==> covered && tail[0] == approve
    requires |tail| == 2 ==> agent.Some? && tail[1] == agent.value
    ensures var log := pre + tail;
            && (forall i :: 0 <= i < |log| ==>
                  log[i] == create || (log[i] == approve && covered) || (agent.Some? && log[i] == agent.value))
            && (!covered ==> log == [] || log == [create])
            && (|tail| == 2 ==>
                  |log| >= 2 && log[|log| - 2] == approve && agent.Some? && log[|log| - 1] == agent.value)
            && (|tail| >= 1 ==> approve in log)
            && (pre == [] && |tail| == 2 ==> agent.Some? && log == [approve, agent.value])
  {
    var log := pre + tail;
    forall i | 0 <= i < |log|
      ensures log[i] == create || (log[i] == approve && covered) || (agent.Some? && log[i] == agent.value)
    {
      if i >= |pre| {
        assert log[i] == tail[i - |pre|];
      }
    }
    if |tail| >= 1 {
      assert log[|pre|] == approve;
    }
    if pre == [] && |tail| == 2 {
      assert tail == [tail[0], tail[1]];
    }
  }

  /** `createAgent`: read the metadata (throwing if it is absent, rethrowing
      any other lookup error) and go on as `PayForAgent`. */
  method CreateAgentFlow(n: Node, provider: Address, metadata: Address) returns (out: Step<U8>)
    requires var c := AgentCreatorAddress(metadata, provider);
             IsCreator(n.store, c) ==> n.store[c].creator.numAgents < 255
    ensures out.node.faults == n.faults
    ensures GetAweMetadataAccount(n, provider, Some(metadata)) == Ok(None) ==>
              out == Step(n, Err(Thrown(MetadataMissingMessage)))
    ensures GetAweMetadataAccount(n, provider, Some(metadata)).Err? ==>
              out == Step(n, Err(GetAweMetadataAccount(n, provider, Some(metadata)).error))
    ensures |n.sent| <= |out.node.sent| && out.node.sent[..|n.sent|] == n.sent
    ensures MetadataFound(n, metadata) ==>
              var m := n.store[metadata].metadata;
              var log := SentSince(n, out.node);
              forall i :: 0 <= i < |log| ==> PlannedEntry(n, provider, metadata, m, log[i])
    ensures MetadataFound(n, metadata) ==>
              var m := n.store[metadata].metadata;
              var ata := DeriveAssociatedTokenAddress(m.aweMint, provider);
              Balance(n.store, ata) < m.agentPrice ==>
                && out.result.Err?
                && (SentSince(n, out.node) == [] ||
                    SentSince(n, out.node) == [CreateAtaInstruction(provider, m.aweMint, provider)])
    ensures MetadataFound(n, metadata) ==>
              var m := n.store[metadata].metadata;
              var ata := DeriveAssociatedTokenAddress(m.aweMint, provider);
              OnCurve(provider) && GetAccount(n, ata) == Err(TokenAccountNotFound) ==>
                |SentSince(n, out.node)| >= 1 &&
                SentSince(n, out.node)[0] == CreateAtaInstruction(provider, m.aweMint, provider)
    ensures out.result.Ok? ==>
              var existing := GetAgentCreatorAccount(n, metadata, provider);
              && MetadataFound(n, metadata)
              && existing.Ok?
              && (existing.value.None? ==> out.result.value == 1)
              && (existing.value.Some? ==> out.result.value == existing.value.value.numAgents + 1)
    ensures MetadataFound(n, metadata) ==>
              var m := n.store[metadata].metadata;
              var ata := DeriveAssociatedTokenAddress(m.aweMint, provider);
              && OnCurve(provider)
              && (GetAccount(n, ata).Ok? || (GetAccount(n, ata) == Err(TokenAccountNotFound) && IsMint(n.store, m.aweMint)))
              && Balance(n.store, ata) >= m.agentPrice ==>
                AgentApproval(provider, m, ata) in SentSince(n, out.node)
    ensures MetadataFound(n, metadata) ==>
              var m := n.store[metadata].metadata;
              var ata := DeriveAssociatedTokenAddress(m.aweMint, provider);
              var existing := GetAgentCreatorAccount(n, metadata, provider);
              && OnCurve(provider) && GetAccount(n, ata).Ok? && Balance(n.store, ata) >= m.agentPrice
              && Approve(n, m.aweMint, ata, DelegateAddress(), m.agentPrice, provider).result.Ok?
              && existing.Ok? ==>
                SentSince(n, out.node) ==
                  [AgentApproval(provider, m, ata),
                   ChooseAgentInstruction(existing.value, ClientAgentAccounts(provider, metadata, m, ata))]
    ensures MetadataFound(n, metadata) ==>
              var m := n.store[metadata].metadata;
              var ata := DeriveAssociatedTokenAddress(m.aweMint, provider);
              && OnCurve(provider) && GetAccount(n, ata).Ok? && Balance(n.store, ata) >= m.agentPrice
              && AgentCallGoesThrough(n, provider, metadata, m, ata) ==>
                out.result.Ok?
  {
    var found := GetAweMetadataAccount(n, provider, Some(metadata));
    if found.Err? {
      return Step(n, Err(found.error));
    }
    if found.value.None? {
      return Step(n, Err(Thrown(MetadataMissingMessage)));
    }
    out := PayForAgent(n, provider, metadata, found.value.value);
  }
}

=== FILE: airdrop.dfy ===
/** client/batch_transfer_awe.ts: the airdrop script. Every parsed CSV row is
    validated first (all or nothing); then the rows from `startIdx` on are
    sent in batches of `batchSize`, each amount scaled from display units to
    base units by appending nine zeros, while running totals are kept. */
module Airdrop {
  import opened Results
  import opened Addresses
  import opened Decimal

  /** `batchSize`: rows per `batchTransferAweToken` call. */
  const BatchSize: nat := 10
  /** `startIdx`: the first row the transfer phase sends. */
  const StartIdx: nat := 0

  /** One parsed CSV row: the recipient's base58 text and its display amount. */
  datatype Record = Record(address: string, amount: string)

  /** `new anchor.BN(text)` on a decimal digit string; other text counts as
      a throw. */
  function ParseAmount(text: string): (r: Option<nat>)
    ensures r.Some? <==> IsDigits(text)
  {
    if IsDigits(text) then Some(Value(text)) else None
  }

  /** `isValidRecord`: the address must decode (`new PublicKey` throws
      otherwise, and the catch answers false) to a point on the curve, and the
      amount must parse to a number greater than zero. `decode` stands for
      base58 decoding with its length check. */
  function IsValidRecord(decode: string -> Option<Address>, r: Record): (ok: bool)
    ensures ok <==> && decode(r.address).Some?
                    && OnCurve(decode(r.address).value)
                    && IsDigits(r.amount)
                    && Value(r.amount) > 0
  {
    match decode(r.address)
    case None => false
    case Some(key) =>
      if !OnCurve(key) then false
      else
        match ParseAmount(r.amount)
        case None => false
        case Some(v) => v > 0
  }

  /** The display amount of a row; rows that do not parse count as zero. */
  function DisplayAmount(r: Record): nat {
    if IsDigits(r.amount) then Value(r.amount) else 0
  }

  /** The sum of the display amounts of the rows with index in `[lo, hi)`. */
  function RangeSum(rs: seq<Record>, lo: nat, hi: nat): nat
    decreases hi
  {
    if hi <= lo then 0
    else RangeSum(rs, lo, hi - 1) + (if hi - 1 < |rs| then DisplayAmount(rs[hi - 1]) else 0)
  }

  /** Sums over adjacent ranges add up. */
  lemma {:induction false} RangeSumSplit(rs: seq<Record>, lo: nat, mid: nat, hi: nat)
    requires lo <= mid <= hi
    ensures RangeSum(rs, lo, hi) == RangeSum(rs, lo, mid) + RangeSum(rs, mid, hi)
    decreases hi
  {
    if hi > mid {
      RangeSumSplit(rs, lo, mid, hi - 1);
    }
  }

  /** The verdict of the validation loop: the 1-based line of the first
      rejected row, or the number of rows and the sum of their display
      amounts. */
  datatype Validation = Invalid(line: nat) | Valid(totalAddresses: nat, totalAmount: nat)

  /** Lines 62-79: validate every row, stopping at the first rejected one. */
  method ValidateRecords(decode: string -> Option<Address>, rs: seq<Record>) returns (v: Validation)
    ensures v.Invalid? <==> exists i :: 0 <= i < |rs| && !IsValidRecord(decode, rs[i])
    ensures v.Invalid? ==>
              && 1 <= v.line <= |rs|
              && !IsValidRecord(decode, rs[v.line - 1])
              && forall j :: 0 <= j < v.line - 1 ==> IsValidRecord(decode, rs[j])
    ensures v.Valid? ==> v.totalAddresses == |rs| && v.totalAmount == RangeSum(rs, 0, |rs|)
  {
    var totalAddresses := 0;
    var totalAmount := 0;
    var i := 0;
    while i < |rs|
      invariant 0 <= i <= |rs|
      invariant forall j :: 0 <= j < i ==> IsValidRecord(decode, rs[j])
      invariant totalAddresses == i
      invariant totalAmount == RangeSum(rs, 0, i)
    {
      if !IsValidRecord(decode, rs[i]) {
        return Invalid(i + 1);
      }
      var amount := ParseAmount(rs[i].amount);
      totalAmount := totalAmount + amount.value;
      totalAddresses := totalAddresses + 1;
      i := i + 1;
    }
    return Valid(totalAddresses, totalAmount);
  }

  function Min(a: nat, b: nat): nat {
    if a <= b then a else b
  }

  /** Line 88, `c + b < len && c + b || len`: JavaScript's `&&` yields the
      sum when the test holds, and `||` falls back to `len` when the left
      side is `false` or the number 0. */
  function JsBatchEnd(cursor: nat, size: nat, len: nat): (e: nat)
    ensures size >= 1 ==> e == Min(cursor + size, len)
  {
    if cursor + size < len && cursor + size != 0 then cursor + size else len
  }

  /** The rows `[start, end)` one call of `batchTransferAweToken` carries. */
  datatype Batch = Batch(start: nat, end: nat)

  /** The batches the transfer loop (lines 86-120) walks through from `cursor`. */
  function Plan(cursor: nat, len: nat, size: nat): (p: seq<Batch>)
    requires size >= 1
    ensures cursor >= len <==> p == []
    ensures cursor < len ==> p[0].start == cursor && p[|p| - 1].end == len
    decreases len - cursor
  {
    if cursor >= len then []
    else [Batch(cursor, JsBatchEnd(cursor, size, len))] + Plan(JsBatchEnd(cursor, size, len), len, size)
  }

  /** Every batch holds between 1 and `size` rows, and all but the last
      hold exactly `size`. */
  lemma {:induction false} PlanBatchSizes(cursor: nat, len: nat, size: nat, i: nat)
    requires size >= 1 && i < |Plan(cursor, len, size)|
    ensures var b := Plan(cursor, len, size)[i];
            b.start < b.end <= b.start + size && b.end <= len
    ensures i < |Plan(cursor, len, size)| - 1 ==>
              Plan(cursor, len, size)[i].end == Plan(cursor, len, size)[i].start + size
    decreases i
  {
    var p := Plan(cursor, len, size);
    var e := JsBatchEnd(cursor, size, len);
    assert p == [Batch(cursor, e)] + Plan(e, len, size);
    if i > 0 {
      PlanBatchSizes(e, len, size, i - 1);
    }
  }

  /** Each batch starts where the previous one ended. */
  lemma {:induction false} PlanContiguous(cursor: nat, len: nat, size: nat, i: nat)
    requires size >= 1 && i + 1 < |Plan(cursor, len, size)|
    ensures Plan(cursor, len, size)[i].end == Plan(cursor, len, size)[i + 1].start
    decreases i
  {
    var p := Plan(cursor, len, size);
    var e := JsBatchEnd(cursor, size, len);
    assert p == [Batch(cursor, e)] + Plan(e, len, size);
    if i > 0 {
      PlanContiguous(e, len, size, i - 1);
    }
  }

  /** Every row in `[cursor, len)` lies in a batch: the one with index `i`. */
  lemma {:induction false} PlanCovers(cursor: nat, len: nat, size: nat, k: nat) returns (i: nat)
    requires size >= 1 && cursor <= k < len
    ensures i < |Plan(cursor, len, size)|
    ensures Plan(cursor, len, size)[i].start <= k < Plan(cursor, len, size)[i].end
    decreases len - cursor
  {
    var p := Plan(cursor, len, size);
    var e := JsBatchEnd(cursor, size, len);
    assert p[0] == Batch(cursor, e);
    if k < e {
      i := 0;
    } else {
      var j := PlanCovers(e, len, size, k);
      assert p[j + 1] == Plan(e, len, size)[j];
      i := j + 1;
    }
  }

  /** Batches are ascending, so no row is sent twice. */
  lemma {:induction false} PlanDisjoint(cursor: nat, len: nat, size: nat, i: nat, j: nat)
    requires size >= 1
    requires i < j < |Plan(cursor, len, size)|
    ensures Plan(cursor, len, size)[i].end <= Plan(cursor, len, size)[j].start
    decreases j - i
  {
    PlanContiguous(cursor, len, size, j - 1);
    if j > i + 1 {
      PlanBatchSizes(cursor, len, size, j - 1);
      PlanDisjoint(cursor, len, size, i, j - 1);
    }
  }

  /** The number of calls is the ceiling of (len - cursor) / size: every
      batch but the last is full and the last is not empty. */
  lemma {:induction false} PlanLength(cursor: nat, len: nat, size: nat)
    requires size >= 1 && cursor < len
    ensures var n := |Plan(cursor, len, size)|;
            (n - 1) * size < len - cursor <= n * size
    decreases len - cursor
  {
    var e := JsBatchEnd(cursor, size, len);
    var p := Plan(cursor, len, size);
    assert p == [Batch(cursor, e)] + Plan(e, len, size);
    if e < len {
      PlanLength(e, len, size);
      var m := |Plan(e, len, size)|;
      assert (m + 1) * size == m * size + size;
      assert m * size == (m - 1) * size + size;
    }
  }

  /** Restarting with `startIdx` at the start of a planned batch replays
      exactly the remaining batches, so a run that threw can be resumed by
      setting `startIdx` to the failed batch's start. */
  lemma {:induction false} PlanResumes(cursor: nat, len: nat, size: nat, i: nat)
    requires size >= 1 && i < |Plan(cursor, len, size)|
    ensures Plan(Plan(cursor, len, size)[i].start, len, size) == Plan(cursor, len, size)[i..]
    decreases i
  {
    var p := Plan(cursor, len, size);
    if i > 0 {
      var e := JsBatchEnd(cursor, size, len);
      PlanResumes(e, len, size, i - 1);
      assert p[1..] == Plan(e, len, size);
      assert p[i] == p[1..][i - 1];
      assert p[i..] == p[1..][i - 1..];
    }
  }

  /** One turn of the transfer loop at batch `k`: the batch ends where
      line 88 says, and another batch follows exactly when that end is short
      of `len`, starting there. */
  lemma PlanAdvance(cursor: nat, len: nat, size: nat, k: nat)
    requires size >= 1 && k < |Plan(cursor, len, size)|
    ensures var p := Plan(cursor, len, size);
            && p[k].end == JsBatchEnd(p[k].start, size, len)
            && (k + 1 < |p| <==> p[k].end < len)
            && (k + 1 < |p| ==> p[k + 1].start == p[k].end)
  {
    var p := Plan(cursor, len, size);
    PlanResumes(cursor, len, size, k);
    assert Plan(p[k].start, len, size)[0] == p[k];
    if k + 1 < |p| {
      PlanContiguous(cursor, len, size, k);
      PlanBatchSizes(cursor, len, size, k + 1);
    }
  }

  /** Every batch of a plan lies within the rows. */
  lemma PlanWithin(rs: seq<Record>, cursor: nat, size: nat)
    requires size >= 1
    ensures BatchesWithin(rs, Plan(cursor, |rs|, size))
  {
    var p := Plan(cursor, |rs|, size);
    forall i | 0 <= i < |p|
      ensures p[i].start <= p[i].end <= |rs|
    {
      PlanBatchSizes(cursor, |rs|, size, i);
    }
  }

  /** 25 rows in batches of 10 go out as 10, 10 and 5 rows. */
  lemma TwentyFiveRows()
    ensures Plan(0, 25, BatchSize) == [Batch(0, 10), Batch(10, 20), Batch(20, 25)]
  {
    assert Plan(20, 25, 10) == [Batch(20, 25)];
    assert Plan(10, 25, 10) == [Batch(10, 20), Batch(20, 25)];
  }

  /** The recipient texts of rows `[lo, hi)`. */
  function Recipients(rs: seq<Record>, lo: nat, hi: nat): (a: seq<string>)
    requires lo <= hi <= |rs|
    ensures |a| == hi - lo
    decreases hi
  {
    if hi == lo then [] else Recipients(rs, lo, hi - 1) + [rs[hi - 1].address]
  }

  /** The base-unit amounts of rows `[lo, hi)`: display amounts times 10^9. */
  function BaseAmounts(rs: seq<Record>, lo: nat, hi: nat): (a: seq<nat>)
    requires lo <= hi <= |rs|
    ensures |a| == hi - lo
    decreases hi
  {
    if hi == lo then [] else BaseAmounts(rs, lo, hi - 1) + [DisplayAmount(rs[hi - 1]) * BaseUnitsPerAwe]
  }

  /** Entry `j` of a batch's recipients is the text of row `lo + j`, and
      its amount is that row's display amount times 10^9. */
  lemma {:induction false} BatchEntry(rs: seq<Record>, lo: nat, hi: nat, j: nat)
    requires lo <= hi <= |rs| && j < hi - lo
    ensures Recipients(rs, lo, hi)[j] == rs[lo + j].address
    ensures BaseAmounts(rs, lo, hi)[j] == DisplayAmount(rs[lo + j]) * BaseUnitsPerAwe
    decreases hi
  {
    if j < hi - 1 - lo {
      BatchEntry(rs, lo, hi - 1, j);
    }
  }

  /** The arguments of one `batchTransferAweToken` call (lines 106-111). */
  datatype Call = Call(addresses: seq<string>, amounts: seq<nat>)

  function BatchCall(rs: seq<Record>, b: Batch): Call
    requires b.start <= b.end <= |rs|
  {
    Call(Recipients(rs, b.start, b.end), BaseAmounts(rs, b.start, b.end))
  }

  /** The rows of every batch in `bs` exist. */
  predicate BatchesWithin(rs: seq<Record>, bs: seq<Batch>) {
    forall i :: 0 <= i < |bs| ==> bs[i].start <= bs[i].end <= |rs|
  }

  /** The calls made for the batches `bs`, in order. */
  function BatchCalls(rs: seq<Record>, bs: seq<Batch>): (cs: seq<Call>)
    requires BatchesWithin(rs, bs)
    ensures |cs| == |bs|
  {
    if bs == [] then [] else BatchCalls(rs, bs[..|bs| - 1]) + [BatchCall(rs, bs[|bs| - 1])]
  }

  /** Call `i` carries the rows of batch `i`. */
  lemma {:induction false} BatchCallsEntry(rs: seq<Record>, bs: seq<Batch>, i: nat)
    requires BatchesWithin(rs, bs) && i < |bs|
    ensures BatchCalls(rs, bs)[i] == BatchCall(rs, bs[i])
    decreases |bs|
  {
    var init := bs[..|bs| - 1];
    assert BatchesWithin(rs, init);
    if i < |bs| - 1 {
      BatchCallsEntry(rs, init, i);
      assert init[i] == bs[i];
    }
  }

  lemma BatchCallsSnoc(rs: seq<Record>, bs: seq<Batch>, b: Batch)
    requires BatchesWithin(rs, bs) && b.start <= b.end <= |rs|
    ensures BatchesWithin(rs, bs + [b])
    ensures BatchCalls(rs, bs + [b]) == BatchCalls(rs, bs) + [BatchCall(rs, b)]
  {
    assert (bs + [b])[..|bs|] == bs;
  }

  /** How the transfer loop ended: all batches sent, or the call with the
      given number threw and the top-level catch ended the run. */
  datatype Outcome = Completed | Threw(call: nat)

  /** The state of the transfer loop when it ends: the calls made, the cursor,
      the counters of lines 82-84 and how it ended. */
  datatype Transfer = Transfer(outcome: Outcome, calls: seq<Call>, cursor: nat, totalTxs: nat,
                               totalAddresses: nat, totalAmount: nat)

  /** Every row that will be sent has a digit-string amount, which the
      validation phase guarantees. */
  predicate DigitAmounts(rs: seq<Record>) {
    forall i :: 0 <= i < |rs| ==> IsDigits(rs[i].amount)
  }

  /** Lines 95-104: gather the recipients and base-unit amounts of the rows
      `[b.start, b.end)`, each amount made by appending nine zeros to the
      display text; also returns how much the two totals grow by. */
  method CollectBatch(rs: seq<Record>, b: Batch) returns (call: Call, addresses: nat, amount: nat)
    requires b.start <= b.end <= |rs| && DigitAmounts(rs)
    ensures call == BatchCall(rs, b)
    ensures addresses == b.end - b.start
    ensures amount == RangeSum(rs, b.start, b.end) * BaseUnitsPerAwe
  {
    var recipients := [];
    var amounts := [];
    addresses, amount := 0, 0;
    var i := b.start;
    while i < b.end
      invariant b.start <= i <= b.end
      invariant recipients == Recipients(rs, b.start, i)
      invariant amounts == BaseAmounts(rs, b.start, i)
      invariant addresses == i - b.start
      invariant amount == RangeSum(rs, b.start, i) * BaseUnitsPerAwe
    {
      recipients := recipients + [rs[i].address];
      var scaled := ParseAmount(ToBaseUnits(rs[i].amount));
      BaseUnitsIsBillionTimes(rs[i].amount);
      amounts := amounts + [scaled.value];
      addresses := addresses + 1;
      amount := amount + scaled.value;
      i := i + 1;
    }
    call := Call(recipients, amounts);
  }

  /** Lines 81-120: send the batches from `startIdx` on. Call number `k`
      (counting from 0) of `batchTransferAweToken` throws when `k` is in
      `failing` and returns otherwise. The address and amount totals are
      added before the call, the cursor and the transaction count after it. */
  method TransferPhase(rs: seq<Record>, startIdx: nat, size: nat, failing: set<nat>) returns (t: Transfer)
    requires size >= 1 && DigitAmounts(rs)
    ensures var plan := Plan(startIdx, |rs|, size);
            && |t.calls| <= |plan|
            && BatchesWithin(rs, plan[..|t.calls|])
            && t.calls == BatchCalls(rs, plan[..|t.calls|])
    ensures var plan := Plan(startIdx, |rs|, size);
            t.outcome == Completed <==> forall i :: 0 <= i < |plan| ==> i !in failing
    ensures t.outcome == Completed ==>
              && |t.calls| == t.totalTxs == |Plan(startIdx, |rs|, size)|
              && t.cursor == (if startIdx <= |rs| then |rs| else startIdx)
              && t.totalAddresses == (if startIdx <= |rs| then |rs| - startIdx else 0)
              && t.totalAmount == RangeSum(rs, startIdx, |rs|) * BaseUnitsPerAwe
    ensures t.outcome.Threw? ==>
              var plan := Plan(startIdx, |rs|, size);
              var k := t.outcome.call;
              && k < |plan| && |t.calls| == k + 1
              && k in failing && (forall j :: 0 <= j < k ==> j !in failing)
              && t.totalTxs == k
              && t.cursor == plan[k].start
              && t.totalAddresses == plan[k].end - startIdx
              && t.totalAmount == RangeSum(rs, startIdx, plan[k].end) * BaseUnitsPerAwe
  {
    ghost var plan := Plan(startIdx, |rs|, size);
    PlanWithin(rs, startIdx, size);
    var cursor := startIdx;
    var totalTxs := 0;
    var totalAddresses := 0;
    var totalAmount := 0;
    var calls := [];
    while cursor < |rs|
      invariant totalTxs == |calls| <= |plan|
      invariant |calls| < |plan| <==> cursor < |rs|
      invariant |calls| < |plan| ==> plan[|calls|].start == cursor
      invariant |calls| == 0 ==> cursor == startIdx
      invariant |calls| > 0 ==> cursor == plan[|calls| - 1].end
      invariant BatchesWithin(rs, plan[..|calls|]) && calls == BatchCalls(rs, plan[..|calls|])
      invariant forall i :: 0 <= i < |calls| ==> i !in failing
      invariant startIdx <= cursor && totalAddresses == cursor - startIdx
      invariant totalAmount == RangeSum(rs, startIdx, cursor) * BaseUnitsPerAwe
      decreases |rs| - cursor
    {
      var batchEnd := JsBatchEnd(cursor, size, |rs|);
      var call, addresses, amount := CollectBatch(rs, Batch(cursor, batchEnd));
      TurnKeepsInvariant(rs, startIdx, size, cursor, calls, call, totalAmount, amount);
      totalAddresses := totalAddresses + addresses;
      totalAmount := totalAmount + amount;
      calls := calls + [call];
      if |calls| - 1 in failing {
        return Transfer(Threw(|calls| - 1), calls, cursor, totalTxs, totalAddresses, totalAmount);
      }
      cursor := batchEnd;
      totalTxs := totalTxs + 1;
    }
    assert |calls| == |plan| && plan[..|calls|] == plan;
    return Transfer(Completed, calls, cursor, totalTxs, totalAddresses, totalAmount);
  }

  /** One turn of the transfer loop keeps its invariant: the batch sent is
      the next planned one, the calls so far are those of the planned
      prefix, and the amount total covers the rows up to the batch's end. */
  lemma TurnKeepsInvariant(rs: seq<Record>, startIdx: nat, size: nat, cursor: nat,
                           calls: seq<Call>, call: Call, totalAmount: nat, amount: nat)
    requires size >= 1
    requires var plan := Plan(startIdx, |rs|, size);
             && |calls| < |plan| && plan[|calls|].start == cursor && startIdx <= cursor
             && BatchesWithin(rs, plan[..|calls|]) && calls == BatchCalls(rs, plan[..|calls|])
             && totalAmount == RangeSum(rs, startIdx, cursor) * BaseUnitsPerAwe
    requires var e := JsBatchEnd(cursor, size, |rs|);
             && cursor <= e <= |rs|
             && call == BatchCall(rs, Batch(cursor, e))
             && amount == RangeSum(rs, cursor, e) * BaseUnitsPerAwe
    ensures var plan := Plan(startIdx, |rs|, size);
            var k := |calls|;
            var e := JsBatchEnd(cursor, size, |rs|);
            && plan[k] == Batch(cursor, e)
            && (k + 1 < |plan| <==> e < |rs|)
            && (k + 1 < |plan| ==> plan[k + 1].start == e)
            && BatchesWithin(rs, plan[..k + 1]) && calls + [call] == BatchCalls(rs, plan[..k + 1])
            && totalAmount + amount == RangeSum(rs, startIdx, e) * BaseUnitsPerAwe
  {
    var plan := Plan(startIdx, |rs|, size);
    var k := |calls|;
    var e := JsBatchEnd(cursor, size, |rs|);
    PlanAdvance(startIdx, |rs|, size, k);
    PlanBatchSizes(startIdx, |rs|, size, k);
    BatchCallsSnoc(rs, plan[..k], plan[k]);
    assert plan[..k + 1] == plan[..k] + [plan[k]];
    RangeSumSplit(rs, startIdx, cursor, e);
  }

  /** What a run of the script reports: the rejected line, or the validated
      totals followed by the transfer loop's state. */
  datatype Report =
    | Rejected(line: nat)
    | Ran(validatedAddresses: nat, validatedAmount: nat, transfer: Transfer)

  /** The whole script with its constants: nothing is sent unless every row
      is valid; with `startIdx` 0 a completed run has counted every row and
      10^9 times the validated display total. */
  method RunAirdrop(decode: string -> Option<Address>, rs: seq<Record>, failing: set<nat>)
    returns (rep: Report)
    ensures rep.Rejected? <==> exists i :: 0 <= i < |rs| && !IsValidRecord(decode, rs[i])
    ensures rep.Rejected? ==>
              && 1 <= rep.line <= |rs|
              && !IsValidRecord(decode, rs[rep.line - 1])
              && forall j :: 0 <= j < rep.line - 1 ==> IsValidRecord(decode, rs[j])
    ensures rep.Ran? ==>
              && rep.validatedAddresses == |rs|
              && rep.validatedAmount == RangeSum(rs, 0, |rs|)
              && |rep.transfer.calls| <= |Plan(StartIdx, |rs|, BatchSize)|
    ensures rep.Ran? ==>
              var plan := Plan(StartIdx, |rs|, BatchSize);
              && BatchesWithin(rs, plan[..|rep.transfer.calls|])
              && rep.transfer.calls == BatchCalls(rs, plan[..|rep.transfer.calls|])
              && (rep.transfer.outcome == Completed <==> forall i :: 0 <= i < |plan| ==> i !in failing)
    ensures rep.Ran? && rep.transfer.outcome == Completed ==>
              && rep.transfer.totalAddresses == rep.validatedAddresses
              && rep.transfer.totalAmount == rep.validatedAmount * BaseUnitsPerAwe
    ensures rep.Ran? && rep.transfer.outcome.Threw? ==>
              var plan := Plan(StartIdx, |rs|, BatchSize);
              var k := rep.transfer.outcome.call;
              && k < |plan| && |rep.transfer.calls| == k + 1
              && k in failing && (forall j :: 0 <= j < k ==> j !in failing)
              && rep.transfer.totalTxs == k
              && rep.transfer.totalAmount == RangeSum(rs, StartIdx, plan[k].end) * BaseUnitsPerAwe
  {
    var v := ValidateRecords(decode, rs);
    if v.Invalid? {
      return Rejected(v.line);
    }
    var t := TransferPhase(rs, StartIdx, BatchSize, failing);
    return Ran(v.totalAddresses, v.totalAmount, t);
  }
}

=== FILE: decimal.dfy ===
/** Decimal digit strings and the display-to-base-unit conversion of the
    airdrop script, which appends nine zeros to the decimal text. */
module Decimal {

  /** Number of decimals of the AWE mint: one display unit is 10^9 base units. */
  const AweDecimals: nat := 9

  /** Base units in one display unit: 10^AweDecimals. */
  const BaseUnitsPerAwe: nat := 1_000_000_000

  /** The suffix the airdrop appends to every display amount. */
  const BaseUnitSuffix: string := "000000000"

  predicate IsDigit(c: char) {
    '0' <= c <= '9'
  }

  predicate IsDigits(s: string) {
    forall i :: 0 <= i < |s| ==> IsDigit(s[i])
  }

  function DigitValue(c: char): (d: nat)
    requires IsDigit(c)
    ensures d < 10
  {
    (c as int) - ('0' as int)
  }

  /** The number a digit string denotes in base ten (the empty string denotes 0). */
  function Value(s: string): nat
    requires IsDigits(s)
  {
    if |s| == 0 then 0 else 10 * Value(s[..|s| - 1]) + DigitValue(s[|s| - 1])
  }

  function Pow10(k: nat): (p: nat)
    ensures p >= 1
  {
    if k == 0 then 1 else 10 * Pow10(k - 1)
  }

  /** A string of `k` zero digits. */
  function Zeros(k: nat): (z: string)
    ensures |z| == k && IsDigits(z)
  {
    if k == 0 then "" else Zeros(k - 1) + "0"
  }

  /** Scaling a display amount to base units by text concatenation. */
  function ToBaseUnits(display: string): (base: string)
    requires IsDigits(display)
    ensures IsDigits(base)
    ensures Value(base) == Value(display) * Pow10(AweDecimals)
  {
    assert BaseUnitSuffix == Zeros(AweDecimals);
    AppendZerosScales(display, AweDecimals);
    display + BaseUnitSuffix
  }

  /** Appending one zero digit multiplies the value by ten. */
  lemma AppendZeroScales(t: string)
    requires IsDigits(t)
    ensures IsDigits(t + "0")
    ensures Value(t + "0") == 10 * Value(t)
  {
    assert (t + "0")[..|t + "0"| - 1] == t;
  }

  /** Appending `k` zero digits multiplies the value by 10^k. */
  lemma {:induction false} AppendZerosScales(s: string, k: nat)
    requires IsDigits(s)
    ensures IsDigits(s + Zeros(k))
    ensures Value(s + Zeros(k)) == Value(s) * Pow10(k)
  {
    if k == 0 {
      assert s + Zeros(0) == s;
    } else {
      AppendZerosScales(s, k - 1);
      var t := s + Zeros(k - 1);
      assert s + Zeros(k) == t + "0";
      AppendZeroScales(t);
      MulAssoc10(Value(s), Pow10(k - 1));
    }
  }

  /** Regrouping a product with ten, kept apart so that the induction step
      of `AppendZerosScales` stays linear. */
  lemma MulAssoc10(a: nat, b: nat)
    ensures 10 * (a * b) == a * (10 * b)
  {
  }

  /** The textual scaling agrees with the arithmetic one, `amount * 1e9`. */
  lemma BaseUnitsIsBillionTimes(display: string)
    requires IsDigits(display)
    ensures Value(ToBaseUnits(display)) == Value(display) * BaseUnitsPerAwe
  {
    assert Pow10(AweDecimals) == 1_000_000_000;
  }
}

=== FILE: instructions.dfy ===
/** The instructions a client can put in a transaction, one dispatcher that
    executes them against the store, and the store invariant they keep. */
module Instructions {
  import opened Results
  import opened Addresses
  import opened Ledger
  import Token
  import opened AweProgram

  datatype Instruction =
    | InitAweMetadataIx(accounts: MetadataAccounts, agentPrice: U64)
    | UpdateAweMetadataIx(accounts: MetadataAccounts, agentPrice: U64)
    | InitAgentCreatorIx(agent: AgentAccounts)
    | CreateAgentIx(agent: AgentAccounts)
    | CreateAssociatedTokenAccountIx(payer: Address, ata: Address, owner: Address, mint: Address)
    | MintToCheckedIx(mint: Address, dest: Address, authority: Address, amount: U64, decimals: U8)
    | ApproveCheckedIx(source: Address, mint: Address, delegate: Address, owner: Address, amount: U64, decimals: U8)

  /** `create_agent` is only modelled while the `u8` counter has room. */
  predicate CanExecute(s: Store, ix: Instruction) {
    ix.CreateAgentIx? ==> HasRoomForAgent(s, ix.agent)
  }

  function Execute(s: Store, ix: Instruction): Result<Store, Error>
    requires CanExecute(s, ix)
  {
    match ix
    case InitAweMetadataIx(a, price) => InitAweMetadata(s, a, price)
    case UpdateAweMetadataIx(a, price) => UpdateAweMetadata(s, a, price)
    case InitAgentCreatorIx(a) => InitAgentCreator(s, a)
    case CreateAgentIx(a) => CreateAgent(s, a)
    case CreateAssociatedTokenAccountIx(payer, ata, owner, mint) =>
      Token.CreateAssociatedTokenAccount(s, payer, ata, owner, mint)
    case MintToCheckedIx(mint, dest, authority, amount, decimals) =>
      Token.MintToChecked(s, mint, dest, authority, amount, decimals)
    case ApproveCheckedIx(source, mint, delegate, owner, amount, decimals) =>
      Token.ApproveChecked(s, source, mint, delegate, owner, amount, decimals)
  }

  /** Two versions of one account that differ at most in balances, allowances,
      supply or counter: kind, mint and owner are kept. */
  predicate SameShape(x: Account, y: Account) {
    match x
    case MetadataAccount(m) => y == x
    case CreatorAccount(_) => y.CreatorAccount?
    case MintAccount(_) => y.MintAccount?
    case TokenAccountData(t) => y.TokenAccountData? && y.token.mint == t.mint && y.token.owner == t.owner
  }

  /** A store whose accounts only changed in shape-preserving ways stays well formed. */
  lemma ShapePreservesWellFormed(s: Store, s': Store)
    requires WellFormed(s)
    requires s'.Keys == s.Keys
    requires forall a :: a in s ==> SameShape(s[a], s'[a])
    ensures WellFormed(s')
  {
    forall a | a in s' && s'[a].MetadataAccount?
      ensures IsMint(s', s'[a].metadata.aweMint)
      ensures IsTokenAccountOf(s', s'[a].metadata.aweCollector, s'[a].metadata.aweMint)
    {
      assert SameShape(s[a], s'[a]);
      var m := s[a].metadata;
      assert SameShape(s[m.aweMint], s'[m.aweMint]);
      assert SameShape(s[m.aweCollector], s'[m.aweCollector]);
    }
    forall a | a in s' && s'[a].TokenAccountData?
      ensures IsMint(s', s'[a].token.mint)
    {
      assert SameShape(s[a], s'[a]);
      assert SameShape(s[s[a].token.mint], s'[s[a].token.mint]);
    }
  }

  /** Storing a metadata account that names an existing mint and a collector
      of that mint, where no mint or token account lived, keeps the store well formed. */
  lemma PutMetadataPreservesWellFormed(s: Store, at: Address, m: AweMetadata)
    requires WellFormed(s)
    requires at in s ==> s[at].MetadataAccount? || s[at].CreatorAccount?
    requires !IsAssociatedTokenAddress(at) && !IsAgentCreatorAddress(at)
    requires IsMint(s, m.aweMint) && IsTokenAccountOf(s, m.aweCollector, m.aweMint)
    ensures WellFormed(s[at := MetadataAccount(m)])
  {
  }

  /** Storing an agent-creator account where no mint or token account lived
      keeps the store well formed. */
  lemma PutCreatorPreservesWellFormed(s: Store, at: Address, c: AgentCreator)
    requires WellFormed(s)
    requires at in s ==> s[at].CreatorAccount?
    requires !IsAssociatedTokenAddress(at)
    ensures WellFormed(s[at := CreatorAccount(c)])
  {
  }

  /** A successful instruction keeps the store well formed: metadata always
      points at a mint and a collector of that mint, token accounts at an
      existing mint, associated accounts match their derivation. */
  lemma ExecutePreservesWellFormed(s: Store, ix: Instruction)
    requires WellFormed(s) && CanExecute(s, ix)
    ensures Execute(s, ix).Ok? ==> WellFormed(Execute(s, ix).value)
  {
    var r := Execute(s, ix);
    if r.Ok? {
      match ix
      case InitAweMetadataIx(a, price) =>
        PutMetadataPreservesWellFormed(s, a.metadata, AweMetadata(a.mint, a.collector, price));
      case UpdateAweMetadataIx(a, price) =>
        PutMetadataPreservesWellFormed(s, a.metadata, AweMetadata(a.mint, a.collector, price));
      case InitAgentCreatorIx(a) =>
        var paid := PayAgentFee(s, a).value;
        TransferKeepsShape(s, a.sender, a.mint, a.collector, a.delegate, AgentPrice(s, a), s[a.mint].mintData.decimals);
        ShapePreservesWellFormed(s, paid);
        PutCreatorPreservesWellFormed(paid, a.creator, AgentCreator(1));
      case CreateAgentIx(a) =>
        var paid := PayAgentFee(s, a).value;
        TransferKeepsShape(s, a.sender, a.mint, a.collector, a.delegate, AgentPrice(s, a), s[a.mint].mintData.decimals);
        ShapePreservesWellFormed(s, paid);
        PutCreatorPreservesWellFormed(paid, a.creator, AgentCreator(s[a.creator].creator.numAgents + 1));
      case CreateAssociatedTokenAccountIx(payer, ata, owner, mint) =>
        AssociatedTokenAddressRoundTrip(mint, owner, ata);
      case MintToCheckedIx(mint, dest, authority, amount, decimals) =>
        ShapePreservesWellFormed(s, r.value);
      case ApproveCheckedIx(source, mint, delegate, owner, amount, decimals) =>
        ShapePreservesWellFormed(s, r.value);
    }
  }

  lemma TransferKeepsShape(s: Store, source: Address, mint: Address, dest: Address,
                           authority: Address, amount: U64, decimals: U8)
    requires Token.TransferChecked(s, source, mint, dest, authority, amount, decimals).Ok?
    ensures var s' := Token.TransferChecked(s, source, mint, dest, authority, amount, decimals).value;
            s'.Keys == s.Keys && forall a :: a in s ==> SameShape(s[a], s'[a])
  {
  }
}

=== FILE: ledger.dfy ===
/** The abstract account store shared by the on-chain program, the token
    program and the clients: a map from address to account data. Lamports,
    rent, account owners and discriminators are left out; an account's
    constructor stands for its owner program and type. */
module Ledger {
  import opened Results
  import opened Addresses

  const TwoTo64: nat := 0x1_0000_0000_0000_0000
  type U64 = x: nat | x < TwoTo64
  type U8 = x: nat | x < 256

  /** `AweMetadata` (programs/awe/src/lib.rs): the fee schedule of one user. */
  datatype AweMetadata = AweMetadata(aweMint: Address, aweCollector: Address, agentPrice: U64)

  /** `AgentCreator` (programs/awe/src/lib.rs): how many agents a user created. */
  datatype AgentCreator = AgentCreator(numAgents: U8)

  /** A Token-2022 mint. */
  datatype Mint = Mint(mintAuthority: Address, supply: U64, decimals: U8)

  /** A Token-2022 token account; `delegate`/`delegatedAmount` is the allowance. */
  datatype TokenAccount = TokenAccount(
    mint: Address,
    owner: Address,
    amount: U64,
    delegate: Option<Address>,
    delegatedAmount: U64)

  datatype Account =
    | MetadataAccount(metadata: AweMetadata)
    | CreatorAccount(creator: AgentCreator)
    | MintAccount(mintData: Mint)
    | TokenAccountData(token: TokenAccount)

  type Store = map<Address, Account>

  /** Errors of the awe program (Anchor constraint errors) and of the token programs. */
  datatype Error =
    | AccountAlreadyInUse         // `init` on an address that already holds an account
    | AccountNotInitialized       // a required account does not exist
    | AccountDidNotDeserialize    // an account of the wrong kind
    | ConstraintSeeds             // an address is not the PDA its seeds give
    | ConstraintHasOne            // a `has_one` field differs from the passed account
    | ConstraintTokenMint         // a token account is not of the passed mint
    | InsufficientFunds
    | OwnerMismatch
    | MintMismatch
    | MintDecimalsMismatch
    | Overflow
    | InvalidSeeds                // associated-token creation at a wrong address

  predicate IsMint(s: Store, a: Address) {
    a in s && s[a].MintAccount?
  }

  predicate IsTokenAccount(s: Store, a: Address) {
    a in s && s[a].TokenAccountData?
  }

  /** `token::mint = mint`: `a` is a token account of `mint`. */
  predicate IsTokenAccountOf(s: Store, a: Address, mint: Address) {
    IsTokenAccount(s, a) && s[a].token.mint == mint
  }

  predicate IsMetadata(s: Store, a: Address) {
    a in s && s[a].MetadataAccount?
  }

  predicate IsCreator(s: Store, a: Address) {
    a in s && s[a].CreatorAccount?
  }

  /** Token balance held at `a`, zero where no token account lives. */
  function Balance(s: Store, a: Address): nat {
    if IsTokenAccount(s, a) then s[a].token.amount else 0
  }

  /** `num_agents` at `a`, zero where no agent-creator account lives. */
  function NumAgents(s: Store, a: Address): nat {
    if IsCreator(s, a) then s[a].creator.numAgents else 0
  }

  /** The two stores agree everywhere except possibly at the addresses in `changed`. */
  predicate SameExcept(s: Store, s': Store, changed: set<Address>) {
    && s.Keys - changed == s'.Keys - changed
    && forall a :: a in s && a !in changed ==> a in s' && s'[a] == s[a]
  }

  /** Invariant of every reachable store: each metadata account names an
      existing mint and a token account of that mint as collector; every
      token account is of an existing mint; an associated-token address
      holds a token account with the mint and owner it was derived from; an
      agent-creator address holds an agent-creator account. */
  predicate WellFormed(s: Store) {
    && (forall a :: a in s && s[a].MetadataAccount? ==>
          IsMint(s, s[a].metadata.aweMint)
          && IsTokenAccountOf(s, s[a].metadata.aweCollector, s[a].metadata.aweMint))
    && (forall a :: a in s && s[a].TokenAccountData? ==> IsMint(s, s[a].token.mint))
    && (forall a :: a in s && IsAssociatedTokenAddress(a) ==>
          s[a].TokenAccountData? && s[a].token.mint == AtaMint(a) && s[a].token.owner == AtaOwner(a))
    && (forall a :: a in s && IsAgentCreatorAddress(a) ==> s[a].CreatorAccount?)
  }
}

=== FILE: metadata_client.dfy ===
/** client/awe_metadata.ts: looking up, creating and updating the caller's
    metadata account through the RPC node. */
module MetadataClient {
  import opened Results
  import opened Addresses
  import opened Ledger
  import opened AweProgram
  import opened Instructions
  import opened Rpc
  import Text

  /** The address `getAweMetadataAccount` reads: the one supplied, or the
      wallet's PDA ("awe_metadata", wallet) when none is. */
  function MetadataLookupAddress(wallet: Address, given: Option<Address>): (a: Address)
    ensures given.None? ==> a == MetadataAddress(wallet)
    ensures given.Some? ==> a == given.value
  {
    match given
    case Some(a) => a
    case None => MetadataAddress(wallet)
  }

  /** `program.account.aweMetadata.fetch`: the account decoded as metadata. */
  function FetchMetadata(n: Node, a: Address): (r: Result<AweMetadata, string>)
    ensures r.Ok? <==> a !in n.faults && IsMetadata(n.store, a)
    ensures r.Ok? ==> r.value == n.store[a].metadata
  {
    var acct :- FetchAccount(n, a);
    if acct.MetadataAccount? then Ok(acct.metadata) else Err(WrongAccountMessage)
  }

  /** `getAweMetadataAccount`: the metadata at the looked-up address, `null`
      exactly when the fetch error says the account does not exist, and any
      other error rethrown. */
  function GetAweMetadataAccount(n: Node, wallet: Address, given: Option<Address>): (r: Result<Option<AweMetadata>, ClientError>)
    ensures var a := MetadataLookupAddress(wallet, given);
            && (r.Ok? && r.value.Some? <==> a !in n.faults && IsMetadata(n.store, a))
            && (r.Ok? && r.value.Some? ==> r.value.value == n.store[a].metadata)
            && (a !in n.faults ==> (r == Ok(None) <==> a !in n.store))
  {
    MessagesClassified();
    NullIfMissing(FetchMetadata(n, MetadataLookupAddress(wallet, given)))
  }
  /** How `GetAweMetadataAccount` sorts a failed fetch: `null` exactly when the
      error message says the account does not exist (or nothing is there
      without a fault), and every other error rethrown as thrown. */
  lemma MetadataLookupClassified(n: Node, wallet: Address, given: Option<Address>)
    ensures var r := GetAweMetadataAccount(n, wallet, given);
            var a := MetadataLookupAddress(wallet, given);
            && (r == Ok(None) <==>
                  if a in n.faults then Text.Contains(n.faults[a], AccountMissingPattern) else a !in n.store)
            && (r.Err? ==> r.error.Thrown? && !Text.Contains(r.error.message, AccountMissingPattern))
  {
    MessagesClassified();
  }


  /** The `initAweMetadata` transaction the client sends for `wallet`. */
  function InitMetadataInstruction(wallet: Address, mint: Address, collector: Address, agentPrice: U64): Instruction {
    InitAweMetadataIx(MetadataAccounts(wallet, MetadataAddress(wallet), mint, collector), agentPrice)
  }

  /** `getOrCreateAweMetadataAccount`: return the wallet's metadata if it
      exists, whatever it holds, without sending anything; otherwise send one
      `initAweMetadata` with the given mint, collector and price and read it back.
      It only ever sends that instruction, and returns only a present account. */
  method GetOrCreateAweMetadataAccount(n: Node, wallet: Address, mint: Address, collector: Address, agentPrice: U64)
    returns (out: Step<AweMetadata>)
    ensures out.node.faults == n.faults
    ensures GetAweMetadataAccount(n, wallet, None).Ok? && GetAweMetadataAccount(n, wallet, None).value.Some? ==>
              out == Step(n, Ok(GetAweMetadataAccount(n, wallet, None).value.value))
    ensures GetAweMetadataAccount(n, wallet, None).Err? ==>
              out == Step(n, Err(GetAweMetadataAccount(n, wallet, None).error))
    ensures var init := InitMetadataInstruction(wallet, mint, collector, agentPrice);
            && (out.node.sent == n.sent || out.node.sent == n.sent + [init] || out.node.sent == n.sent + [init, init])
            && (out.result.Ok? ==> out.node.sent == n.sent || out.node.sent == n.sent + [init])
            && (out.node.sent != n.sent ==> GetAweMetadataAccount(n, wallet, None) == Ok(None))
    ensures out.result.Ok? && out.node.sent != n.sent ==> out.result.value == AweMetadata(mint, collector, agentPrice)
    ensures GetAweMetadataAccount(n, wallet, None) == Ok(None) ==> out.node.sent != n.sent
    ensures GetAweMetadataAccount(n, wallet, None) == Ok(None) && MetadataAddress(wallet) !in n.faults
            && MetadataConstraints(n.store, MetadataAccounts(wallet, MetadataAddress(wallet), mint, collector), true) ==>
              out.result == Ok(AweMetadata(mint, collector, agentPrice))
    ensures out.result.Ok? ==>
              && MetadataAddress(wallet) !in n.faults
              && IsMetadata(out.node.store, MetadataAddress(wallet))
              && out.node.store[MetadataAddress(wallet)].metadata == out.result.value
  {
    var md := MetadataAddress(wallet);
    var init := InitMetadataInstruction(wallet, mint, collector, agentPrice);
    var node := n;
    var account: Option<AweMetadata> := None;
    while account.None?
      invariant node.faults == n.faults
      invariant node.sent == n.sent || node.sent == n.sent + [init]
      invariant node.sent == n.sent ==> node.store == n.store
      invariant node.sent != n.sent ==>
                  && GetAweMetadataAccount(n, wallet, None) == Ok(None)
                  && IsMetadata(node.store, md)
                  && node.store[md].metadata == AweMetadata(mint, collector, agentPrice)
      invariant account.Some? ==> GetAweMetadataAccount(node, wallet, None) == Ok(account)
      invariant account.Some? ==> md !in n.faults && IsMetadata(node.store, md)
                                  && node.store[md].metadata == account.value
      decreases (if md in node.store then 0 else 1), (if account.None? then 1 else 0)
    {
      var found := GetAweMetadataAccount(node, wallet, None);
      if found.Err? {
        return Step(node, Err(found.error));
      }
      account := found.value;
      if account.None? {
        var st := Send(node, init);
        node := st.node;
        if st.result.Err? {
          return Step(node, Err(st.result.error));
        }
      }
    }
    return Step(node, Ok(account.value));
  }

  /** `updateAweMetadataAccount`: send `updateAweMetadata` for the wallet's own
      PDA and return that address, the same one the lookup derives. */
  function UpdateAweMetadataAccount(n: Node, wallet: Address, mint: Address, collector: Address, agentPrice: U64)
    : (out: Step<Address>)
    ensures out.node.sent == n.sent +
              [UpdateAweMetadataIx(MetadataAccounts(wallet, MetadataLookupAddress(wallet, None), mint, collector), agentPrice)]
    ensures out.result.Ok? ==>
              && out.result.value == MetadataLookupAddress(wallet, None)
              && SameExcept(n.store, out.node.store, {out.result.value})
              && IsMetadata(out.node.store, out.result.value)
              && out.node.store[out.result.value].metadata == AweMetadata(mint, collector, agentPrice)
    ensures out.result.Err? ==> out.node.store == n.store
  {
    var md := MetadataAddress(wallet);
    var st := Send(n, UpdateAweMetadataIx(MetadataAccounts(wallet, md, mint, collector), agentPrice));
    Step(st.node, if st.result.Ok? then Ok(md) else Err(st.result.error))
  }
}

=== FILE: program.dfy ===
/** The `awe` on-chain program: four instructions over the account store.
    Each `#[derive(Accounts)]` constraint becomes a check that fails the
    instruction; a failed instruction changes nothing (the transaction is
    rolled back), which `Apply` makes explicit. */
module AweProgram {
  import opened Results
  import opened Addresses
  import opened Ledger
  import Token

  /** Accounts of `init_awe_metadata` and `update_awe_metadata`. */
  datatype MetadataAccounts = MetadataAccounts(user: Address, metadata: Address, mint: Address, collector: Address)

  /** Accounts of `init_agent_creator` and `create_agent`. */
  datatype AgentAccounts = AgentAccounts(
    user: Address,
    metadata: Address,
    mint: Address,
    collector: Address,
    creator: Address,
    sender: Address,
    delegate: Address)

  /** The store a transaction leaves behind: a failed one changes nothing. */
  function Apply(s: Store, r: Result<Store, Error>): Store {
    if r.Ok? then r.value else s
  }

  /** `InitAweMetadata` / `UpdateAweMetadata` constraints: the mint is a mint,
      the metadata account is the PDA ("awe_metadata", user) and is fresh for
      `init` or an existing metadata account for `mut`, and the collector is a
      token account of the mint. */
  predicate MetadataConstraints(s: Store, a: MetadataAccounts, init: bool) {
    && IsMint(s, a.mint)
    && a.metadata == MetadataAddress(a.user)
    && (if init then a.metadata !in s else IsMetadata(s, a.metadata))
    && IsTokenAccountOf(s, a.collector, a.mint)
  }

  function CheckMetadataAccounts(s: Store, a: MetadataAccounts, init: bool): (r: Result<(), Error>)
    ensures r.Ok? <==> MetadataConstraints(s, a, init)
  {
    if !(a.mint in s) then Err(AccountNotInitialized)
    else if !s[a.mint].MintAccount? then Err(AccountDidNotDeserialize)
    else if a.metadata != MetadataAddress(a.user) then Err(ConstraintSeeds)
    else if init && a.metadata in s then Err(AccountAlreadyInUse)
    else if !init && a.metadata !in s then Err(AccountNotInitialized)
    else if !init && !s[a.metadata].MetadataAccount? then Err(AccountDidNotDeserialize)
    else if !IsTokenAccount(s, a.collector) then Err(AccountNotInitialized)
    else if s[a.collector].token.mint != a.mint then Err(ConstraintTokenMint)
    else Ok(())
  }

  /** `init_awe_metadata`: create the caller's metadata account holding exactly
      the given mint, collector and price. */
  function InitAweMetadata(s: Store, a: MetadataAccounts, agentPrice: U64): (r: Result<Store, Error>)
    ensures r.Ok? <==> MetadataConstraints(s, a, true)
    ensures r.Ok? ==>
      && SameExcept(s, r.value, {MetadataAddress(a.user)})
      && IsMetadata(r.value, MetadataAddress(a.user))
      && r.value[MetadataAddress(a.user)].metadata == AweMetadata(a.mint, a.collector, agentPrice)
  {
    var _ :- CheckMetadataAccounts(s, a, true);
    Ok(s[a.metadata := MetadataAccount(AweMetadata(a.mint, a.collector, agentPrice))])
  }

  /** `update_awe_metadata`: overwrite the three fields of the caller's own
      metadata account; no other account changes. */
  function UpdateAweMetadata(s: Store, a: MetadataAccounts, agentPrice: U64): (r: Result<Store, Error>)
    ensures r.Ok? <==> MetadataConstraints(s, a, false)
    ensures r.Ok? ==>
      && SameExcept(s, r.value, {MetadataAddress(a.user)})
      && IsMetadata(r.value, MetadataAddress(a.user))
      && r.value[MetadataAddress(a.user)].metadata == AweMetadata(a.mint, a.collector, agentPrice)
  {
    var _ :- CheckMetadataAccounts(s, a, false);
    Ok(s[a.metadata := MetadataAccount(AweMetadata(a.mint, a.collector, agentPrice))])
  }

  /** `InitAgentCreator` / `CreateAgent` constraints: the metadata account
      exists and its stored mint and collector are the passed ones (`has_one`);
      the mint is a mint; collector and sender are token accounts of it; the
      creator account is the PDA ("agent_creator", metadata, user), fresh for
      `init` and an existing creator account for `mut`; the delegate is the
      PDA ("delegate"). */
  predicate AgentConstraints(s: Store, a: AgentAccounts, init: bool) {
    && IsMetadata(s, a.metadata)
    && s[a.metadata].metadata.aweMint == a.mint
    && s[a.metadata].metadata.aweCollector == a.collector
    && IsMint(s, a.mint)
    && IsTokenAccountOf(s, a.collector, a.mint)
    && a.creator == AgentCreatorAddress(a.metadata, a.user)
    && (if init then a.creator !in s else IsCreator(s, a.creator))
    && IsTokenAccountOf(s, a.sender, a.mint)
    && a.delegate == DelegateAddress()
  }

  function CheckAgentAccounts(s: Store, a: AgentAccounts, init: bool): (r: Result<(), Error>)
    ensures r.Ok? <==> AgentConstraints(s, a, init)
  {
    if a.metadata !in s then Err(AccountNotInitialized)
    else if !s[a.metadata].MetadataAccount? then Err(AccountDidNotDeserialize)
    else if s[a.metadata].metadata.aweMint != a.mint then Err(ConstraintHasOne)
    else if s[a.metadata].metadata.aweCollector != a.collector then Err(ConstraintHasOne)
    else if a.mint !in s then Err(AccountNotInitialized)
    else if !s[a.mint].MintAccount? then Err(AccountDidNotDeserialize)
    else if !IsTokenAccount(s, a.collector) then Err(AccountNotInitialized)
    else if s[a.collector].token.mint != a.mint then Err(ConstraintTokenMint)
    else if a.creator != AgentCreatorAddress(a.metadata, a.user) then Err(ConstraintSeeds)
    else if init && a.creator in s then Err(AccountAlreadyInUse)
    else if !init && a.creator !in s then Err(AccountNotInitialized)
    else if !init && !s[a.creator].CreatorAccount? then Err(AccountDidNotDeserialize)
    else if !IsTokenAccount(s, a.sender) then Err(AccountNotInitialized)
    else if s[a.sender].token.mint != a.mint then Err(ConstraintTokenMint)
    else if a.delegate != DelegateAddress() then Err(ConstraintSeeds)
    else Ok(())
  }

  /** The agent fee stored in the metadata account. */
  function AgentPrice(s: Store, a: AgentAccounts): U64
    requires IsMetadata(s, a.metadata)
  {
    s[a.metadata].metadata.agentPrice
  }

  /** The fee transfer both agent instructions make: `agent_price` from sender
      to collector, with the mint's decimals, authorised by the delegate PDA. */
  function PayAgentFee(s: Store, a: AgentAccounts): Result<Store, Error>
    requires IsMetadata(s, a.metadata) && IsMint(s, a.mint)
  {
    Token.TransferChecked(s, a.sender, a.mint, a.collector, a.delegate,
                          AgentPrice(s, a), s[a.mint].mintData.decimals)
  }

  /** The fee moved from `a.sender` to `a.collector` between `s` and `s'`. */
  predicate FeePaid(s: Store, s': Store, a: AgentAccounts, price: nat) {
    && Balance(s', a.sender) + price == Balance(s, a.sender)
    && Balance(s', a.collector) == Balance(s, a.collector) + price
  }

  /** `init_agent_creator`: pay the fee, then create the caller's agent-creator
      account with `num_agents = 1`. A failed payment fails the instruction. */
  function InitAgentCreator(s: Store, a: AgentAccounts): (r: Result<Store, Error>)
    ensures r.Ok? <==> AgentConstraints(s, a, true) && PayAgentFee(s, a).Ok?
    ensures r.Ok? ==>
      && SameExcept(s, r.value, {a.sender, a.collector, a.creator})
      && IsCreator(r.value, a.creator) && NumAgents(r.value, a.creator) == 1
      && IsMetadata(r.value, a.metadata) && r.value[a.metadata] == s[a.metadata]
      && (a.sender != a.collector ==> FeePaid(s, r.value, a, AgentPrice(s, a)))
  {
    var _ :- CheckAgentAccounts(s, a, true);
    var paid :- PayAgentFee(s, a);
    Ok(paid[a.creator := CreatorAccount(AgentCreator(1))])
  }

  /** The `u8` counter of an existing agent-creator account has room for one more. */
  predicate HasRoomForAgent(s: Store, a: AgentAccounts) {
    IsCreator(s, a.creator) ==> s[a.creator].creator.numAgents < 255
  }

  /** `create_agent`: pay the fee, then add one to `num_agents` of the caller's
      existing agent-creator account. A failed payment fails the instruction. */
  function CreateAgent(s: Store, a: AgentAccounts): (r: Result<Store, Error>)
    requires HasRoomForAgent(s, a)
    ensures r.Ok? <==> AgentConstraints(s, a, false) && PayAgentFee(s, a).Ok?
    ensures r.Ok? ==>
      && SameExcept(s, r.value, {a.sender, a.collector, a.creator})
      && IsCreator(r.value, a.creator)
      && NumAgents(r.value, a.creator) == NumAgents(s, a.creator) + 1
      && IsMetadata(r.value, a.metadata) && r.value[a.metadata] == s[a.metadata]
      && (a.sender != a.collector ==> FeePaid(s, r.value, a, AgentPrice(s, a)))
  {
    var _ :- CheckAgentAccounts(s, a, false);
    var paid :- PayAgentFee(s, a);
    var n := s[a.creator].creator.numAgents;
    Ok(paid[a.creator := CreatorAccount(AgentCreator(n + 1))])
  }
}

=== FILE: results.dfy ===
/** Failure-carrying datatypes shared by every module of the model. */
module Results {

  /** A value that may be absent: the model's rendering of a JavaScript `null`. */
  datatype Option<+T> = None | Some(value: T)

  /** Either a value or an error; usable with `:-`. */
  datatype Result<+T, +E> = Ok(value: T) | Err(error: E) {

    predicate IsFailure() {
      Err?
    }

    function PropagateFailure<U>(): Result<U, E>
      requires Err?
    {
      Err(error)
    }

    function Extract(): T
      requires Ok?
    {
      value
    }
  }
}

=== FILE: rpc.dfy ===
/** The client's view of the cluster: the account store, the fetch failures
    the RPC endpoint reports, and the log of every transaction sent.
    Blockhashes, commitment levels and fees are left out; a transaction is
    one instruction, executed atomically. */
module Rpc {
  import opened Results
  import opened Addresses
  import opened Ledger
  import opened Instructions
  import Text

  /** `faults[a]` is the message every fetch of `a` fails with (a transport
      or node error); `sent` lists every transaction submitted, in order. */
  datatype Node = Node(store: Store, faults: map<Address, string>, sent: seq<Instruction>)

  /** What a client call throws: a JavaScript error with a message, or a
      transaction the cluster rejected with a program error. */
  datatype ClientError = Thrown(message: string) | TransactionFailed(error: Error)

  /** The node after a client call together with its outcome. */
  datatype Step<+T> = Step(node: Node, result: Result<T, ClientError>)

  /** The text the clients test fetch errors against. */
  const AccountMissingPattern: string := "Account does not exist"

  /** Anchor's error text for a fetch of an address that holds no account. */
  const AccountMissingMessage: string := "Account does not exist or has no data"

  /** Anchor's error text for an account of another type. */
  const WrongAccountMessage: string := "Invalid account discriminator"

  /** The raw account fetch. */
  function FetchAccount(n: Node, a: Address): (r: Result<Account, string>)
    ensures r.Ok? <==> a !in n.faults && a in n.store
    ensures r.Ok? ==> r.value == n.store[a]
  {
    if a in n.faults then Err(n.faults[a])
    else if a !in n.store then Err(AccountMissingMessage)
    else Ok(n.store[a])
  }

  /** The clients' catch blocks: an error whose text matches
      /Account does not exist/ becomes `null`, every other error is rethrown. */
  function NullIfMissing<T>(r: Result<T, string>): (o: Result<Option<T>, ClientError>)
    ensures r.Ok? ==> o == Ok(Some(r.value))
    ensures r.Err? && Text.Contains(r.error, AccountMissingPattern) ==> o == Ok(None)
    ensures r.Err? && !Text.Contains(r.error, AccountMissingPattern) ==> o == Err(Thrown(r.error))
  {
    match r
    case Ok(v) => Ok(Some(v))
    case Err(msg) => if Text.Contains(msg, AccountMissingPattern) then Ok(None) else Err(Thrown(msg))
  }

  /** `sendAndConfirm` / `.rpc()`: the transaction is logged as sent; the
      store changes exactly when it succeeds; a rejection is thrown. */
  function Send(n: Node, ix: Instruction): (st: Step<()>)
    requires CanExecute(n.store, ix)
    ensures st.node.sent == n.sent + [ix] && st.node.faults == n.faults
    ensures st.result.Ok? <==> Execute(n.store, ix).Ok?
    ensures st.result.Ok? ==> st.node.store == Execute(n.store, ix).value
    ensures st.result.Err? ==> st.node.store == n.store
                               && st.result.error == TransactionFailed(Execute(n.store, ix).error)
  {
    var sent := n.sent + [ix];
    match Execute(n.store, ix)
    case Ok(s') => Step(Node(s', n.faults, sent), Ok(()))
    case Err(e) => Step(n.(sent := sent), Err(TransactionFailed(e)))
  }

  /** The missing-account message is recognised as absence; the wrong-type
      message is not. */
  lemma MessagesClassified()
    ensures Text.Contains(AccountMissingMessage, AccountMissingPattern)
    ensures !Text.Contains(WrongAccountMessage, AccountMissingPattern)
  {
    Text.ContainsOwnPrefix(AccountMissingPattern, " or has no data");
    assert AccountMissingMessage == AccountMissingPattern + " or has no data";
    Text.MissingFirstCharNotContained(WrongAccountMessage, AccountMissingPattern);
  }
}

=== FILE: text.dfy ===
/** Substring search on strings, used to classify error messages. */
module Text {

  predicate StartsWith(s: string, prefix: string) {
    |prefix| <= |s| && s[..|prefix|] == prefix
  }

  /** `pattern` occurs in `s` starting at index `i`. */
  predicate OccursAt(s: string, pattern: string, i: int) {
    0 <= i <= |s| - |pattern| && s[i..i + |pattern|] == pattern
  }

  /** True when `pattern` occurs somewhere in `s` (JavaScript `RegExp.test`
      with a literal pattern). */
  predicate Contains(s: string, pattern: string) {
    exists i :: 0 <= i <= |s| - |pattern| && OccursAt(s, pattern, i)
  }

  /** The left-to-right scan: try index 0, then the rest of the string. */
  predicate ScanFinds(s: string, pattern: string)
    decreases |s|
  {
    StartsWith(s, pattern) || (|s| > 0 && ScanFinds(s[1..], pattern))
  }

  /** The left-to-right scan finds exactly the occurrences at some index. */
  lemma {:induction false} ScanFindsIffContains(s: string, pattern: string)
    ensures ScanFinds(s, pattern) <==> Contains(s, pattern)
    decreases |s|
  {
    if StartsWith(s, pattern) {
      assert OccursAt(s, pattern, 0);
    } else if |s| == 0 {
    } else {
      ScanFindsIffContains(s[1..], pattern);
      if Contains(s[1..], pattern) {
        var i :| 0 <= i <= |s[1..]| - |pattern| && OccursAt(s[1..], pattern, i);
        assert s[i + 1..i + 1 + |pattern|] == s[1..][i..i + |pattern|];
        assert OccursAt(s, pattern, i + 1);
      }
      if Contains(s, pattern) {
        var i :| 0 <= i <= |s| - |pattern| && OccursAt(s, pattern, i);
        if i > 0 {
          assert s[1..][i - 1..i - 1 + |pattern|] == s[i..i + |pattern|];
          assert OccursAt(s[1..], pattern, i - 1);
        }
      }
    }
  }

  /** A message that begins with `pattern` contains it. */
  lemma ContainsOwnPrefix(pattern: string, rest: string)
    ensures Contains(pattern + rest, pattern)
  {
    assert (pattern + rest)[0..|pattern|] == pattern;
    assert OccursAt(pattern + rest, pattern, 0);
  }

  /** A string in which the first character of `pattern` never appears does not contain it. */
  lemma MissingFirstCharNotContained(s: string, pattern: string)
    requires |pattern| > 0
    requires forall i :: 0 <= i < |s| ==> s[i] != pattern[0]
    ensures !Contains(s, pattern)
  {
    forall i | 0 <= i <= |s| - |pattern|
      ensures !OccursAt(s, pattern, i)
    {
      assert s[i..i + |pattern|][0] == s[i];
    }
  }
}

=== FILE: token.dfy ===
/** The Token-2022 and associated-token program instructions the clients and
    the awe program use, as balance, allowance and existence updates of the
    account store. Account owners, frozen state, extensions and rent are left out. */
module Token {
  import opened Results
  import opened Addresses
  import opened Ledger

  /** `authority` may move `amount` out of the token account `source`:
      either as its delegate within the allowance, or as its owner. */
  predicate Authorized(t: TokenAccount, authority: Address, amount: nat) {
    if t.delegate == Some(authority) then amount <= t.delegatedAmount
    else authority == t.owner
  }

  /** `transfer_checked`: move `amount` from `source` to `dest`, both token
      accounts of `mint`, with the mint's own decimals. A transfer to the
      same account changes nothing. */
  function TransferChecked(s: Store, source: Address, mint: Address, dest: Address,
                           authority: Address, amount: U64, decimals: U8): (r: Result<Store, Error>)
    ensures r.Ok? <==>
      && IsTokenAccountOf(s, source, mint) && IsTokenAccountOf(s, dest, mint) && IsMint(s, mint)
      && decimals == s[mint].mintData.decimals
      && amount <= Balance(s, source)
      && Authorized(s[source].token, authority, amount)
      && (source == dest || Balance(s, dest) + amount < TwoTo64)
    ensures r.Ok? ==> SameExcept(s, r.value, {source, dest})
    ensures r.Ok? && source == dest ==> r.value == s
    ensures r.Ok? && source != dest ==>
      && Balance(r.value, source) == Balance(s, source) - amount
      && Balance(r.value, dest) == Balance(s, dest) + amount
      && IsTokenAccountOf(r.value, source, mint) && IsTokenAccountOf(r.value, dest, mint)
      && r.value[source].token.owner == s[source].token.owner
      && r.value[dest].token.owner == s[dest].token.owner
    ensures r.Ok? && source != dest ==>
      r.value[dest].token == s[dest].token.(amount := s[dest].token.amount + amount)
    ensures r.Ok? && source != dest && s[source].token.delegate == Some(authority) ==>
      && r.value[source].token.delegatedAmount == s[source].token.delegatedAmount - amount
      && r.value[source].token.delegate ==
           (if r.value[source].token.delegatedAmount == 0 then None else Some(authority))
      && r.value[source].token.mint == mint
    ensures r.Ok? && source != dest && s[source].token.delegate != Some(authority) ==>
      r.value[source].token == s[source].token.(amount := s[source].token.amount - amount)
  {
    if !IsTokenAccount(s, source) || !IsTokenAccount(s, dest) || !IsMint(s, mint) then
      Err(AccountNotInitialized)
    else
      var from := s[source].token;
      var to := s[dest].token;
      if from.mint != mint || to.mint != mint then Err(MintMismatch)
      else if decimals != s[mint].mintData.decimals then Err(MintDecimalsMismatch)
      else if from.amount < amount then Err(InsufficientFunds)
      else if from.delegate == Some(authority) && from.delegatedAmount < amount then Err(InsufficientFunds)
      else if from.delegate != Some(authority) && authority != from.owner then Err(OwnerMismatch)
      else if source == dest then Ok(s)
      else if to.amount + amount >= TwoTo64 then Err(Overflow)
      else
        var allowance: U64 := if from.delegate == Some(authority) then from.delegatedAmount - amount else from.delegatedAmount;
        var from' := from.(
          amount := from.amount - amount,
          delegatedAmount := allowance,
          delegate := if from.delegate == Some(authority) && allowance == 0 then None else from.delegate);
        Ok(s[source := TokenAccountData(from')][dest := TokenAccountData(to.(amount := to.amount + amount))])
  }

  /** `approveChecked`: the owner of `source` lets `delegate` move up to
      `amount`, replacing any earlier allowance. */
  function ApproveChecked(s: Store, source: Address, mint: Address, delegate: Address,
                          owner: Address, amount: U64, decimals: U8): (r: Result<Store, Error>)
    ensures r.Ok? <==>
      && IsTokenAccountOf(s, source, mint) && IsMint(s, mint)
      && decimals == s[mint].mintData.decimals
      && owner == s[source].token.owner
    ensures r.Ok? ==>
      && SameExcept(s, r.value, {source})
      && source in r.value
      && r.value[source] == TokenAccountData(s[source].token.(delegate := Some(delegate), delegatedAmount := amount))
  {
    if !IsTokenAccount(s, source) || !IsMint(s, mint) then Err(AccountNotInitialized)
    else if s[source].token.mint != mint then Err(MintMismatch)
    else if decimals != s[mint].mintData.decimals then Err(MintDecimalsMismatch)
    else if owner != s[source].token.owner then Err(OwnerMismatch)
    else Ok(s[source := TokenAccountData(s[source].token.(delegate := Some(delegate), delegatedAmount := amount))])
  }

  /** `mintToChecked`: the mint authority creates `amount` new tokens in `dest`. */
  function MintToChecked(s: Store, mint: Address, dest: Address, authority: Address,
                         amount: U64, decimals: U8): (r: Result<Store, Error>)
    ensures r.Ok? <==>
      && IsMint(s, mint) && IsTokenAccountOf(s, dest, mint)
      && decimals == s[mint].mintData.decimals
      && authority == s[mint].mintData.mintAuthority
      && s[mint].mintData.supply + amount < TwoTo64
      && Balance(s, dest) + amount < TwoTo64
    ensures r.Ok? ==>
      && SameExcept(s, r.value, {mint, dest})
      && Balance(r.value, dest) == Balance(s, dest) + amount
      && IsMint(r.value, mint)
      && r.value[mint].mintData.supply == s[mint].mintData.supply + amount
      && r.value[mint].mintData.decimals == s[mint].mintData.decimals
      && IsTokenAccountOf(r.value, dest, mint)
      && r.value[dest].token.owner == s[dest].token.owner
  {
    if !IsMint(s, mint) || !IsTokenAccount(s, dest) then Err(AccountNotInitialized)
    else
      var m := s[mint].mintData;
      var to := s[dest].token;
      if to.mint != mint then Err(MintMismatch)
      else if decimals != m.decimals then Err(MintDecimalsMismatch)
      else if authority != m.mintAuthority then Err(OwnerMismatch)
      else if m.supply + amount >= TwoTo64 || to.amount + amount >= TwoTo64 then Err(Overflow)
      else
        Ok(s[mint := MintAccount(m.(supply := m.supply + amount))]
            [dest := TokenAccountData(to.(amount := to.amount + amount))])
  }

  /** `createAssociatedTokenAccount` (the non-idempotent form): a fresh, empty
      token account of `mint` for `owner` at its associated address, paid by `payer`. */
  function CreateAssociatedTokenAccount(s: Store, payer: Address, ata: Address,
                                        owner: Address, mint: Address): (r: Result<Store, Error>)
    ensures r.Ok? <==> ata == DeriveAssociatedTokenAddress(mint, owner) && ata !in s && IsMint(s, mint)
    ensures r.Ok? ==>
      && SameExcept(s, r.value, {ata})
      && ata in r.value
      && r.value[ata] == TokenAccountData(TokenAccount(mint, owner, 0, None, 0))
  {
    if ata != DeriveAssociatedTokenAddress(mint, owner) then Err(InvalidSeeds)
    else if ata in s then Err(AccountAlreadyInUse)
    else if !IsMint(s, mint) then Err(AccountNotInitialized)
    else Ok(s[ata := TokenAccountData(TokenAccount(mint, owner, 0, None, 0))])
  }
}

=== FILE: token_client.dfy ===
/** client/awe_token.ts: resolving or creating associated token accounts,
    minting and approving, through the RPC node. */
module TokenClient {
  import opened Results
  import opened Addresses
  import opened Ledger
  import opened Instructions
  import opened Rpc
  import Token

  /** The decimals the AWE mint is created with, and the value `approve` passes. */
  const AweMintDecimals: U8 := 9

  /** How `getAccount` fails. */
  datatype LookupError =
    | TokenAccountNotFound        // no account at the address
    | TokenInvalidAccountOwner    // an account that is not a token account
    | FetchFailed(message: string)

  /** `getAccount(connection, address, null, TOKEN_2022_PROGRAM_ID)`. */
  function GetAccount(n: Node, a: Address): (r: Result<TokenAccount, LookupError>)
    ensures r.Ok? <==> a !in n.faults && IsTokenAccount(n.store, a)
    ensures r.Ok? ==> r.value == n.store[a].token
    ensures r == Err(TokenAccountNotFound) <==> a !in n.faults && a !in n.store
  {
    if a in n.faults then Err(FetchFailed(n.faults[a]))
    else if a !in n.store then Err(TokenAccountNotFound)
    else if !n.store[a].TokenAccountData? then Err(TokenInvalidAccountOwner)
    else Ok(n.store[a].token)
  }

  /** The text of a rethrown lookup error. */
  function LookupMessage(e: LookupError): string {
    match e
    case TokenAccountNotFound => "TokenAccountNotFoundError"
    case TokenInvalidAccountOwner => "TokenInvalidAccountOwnerError"
    case FetchFailed(m) => m
  }

  const OwnerOffCurveMessage: string := "TokenOwnerOffCurveError"

  /** The create-ATA transaction the client sends, paid by `payer`. */
  function CreateAtaInstruction(payer: Address, mint: Address, owner: Address): Instruction {
    CreateAssociatedTokenAccountIx(payer, DeriveAssociatedTokenAddress(mint, owner), owner, mint)
  }

  /** `getOrCreateAssociatedTokenAccount`: derive the (mint, owner) associated
      address; return the account found there without sending anything; on
      `TokenAccountNotFoundError` send one create transaction paid by the
      provider and look again; rethrow any other error. Only the associated
      address can change, and only a present account is returned. */
  method GetOrCreateAssociatedTokenAccount(n: Node, mint: Address, owner: Address, provider: Address)
    returns (out: Step<(Address, TokenAccount)>)
    ensures out.node.faults == n.faults
    ensures SameExcept(n.store, out.node.store, {DeriveAssociatedTokenAddress(mint, owner)})
    ensures !OnCurve(owner) ==> out == Step(n, Err(Thrown(OwnerOffCurveMessage)))
    ensures OnCurve(owner) ==>
              var ata := DeriveAssociatedTokenAddress(mint, owner);
              && (GetAccount(n, ata).Ok? ==> out == Step(n, Ok((ata, GetAccount(n, ata).value))))
              && (GetAccount(n, ata).Err? && GetAccount(n, ata).error != TokenAccountNotFound ==>
                    out == Step(n, Err(Thrown(LookupMessage(GetAccount(n, ata).error)))))
              && (GetAccount(n, ata) == Err(TokenAccountNotFound) ==>
                    out.node.sent == n.sent + [CreateAtaInstruction(provider, mint, owner)])
    ensures out.node.sent == n.sent ==> out.node.store == n.store
    ensures out.result.Ok? ==>
              var ata := out.result.value.0;
              && ata == DeriveAssociatedTokenAddress(mint, owner)
              && ata !in n.faults
              && IsTokenAccount(out.node.store, ata)
              && out.node.store[ata].token == out.result.value.1
    ensures out.result.Ok? && out.node.sent != n.sent ==>
              out.result.value.1 == TokenAccount(mint, owner, 0, None, 0)
    ensures var ata := DeriveAssociatedTokenAddress(mint, owner);
            OnCurve(owner) && GetAccount(n, ata) == Err(TokenAccountNotFound) && IsMint(n.store, mint) ==>
              out.result == Ok((ata, TokenAccount(mint, owner, 0, None, 0)))
  {
    var derived := GetAssociatedTokenAddress(mint, owner);
    if derived.Err? {
      return Step(n, Err(Thrown(OwnerOffCurveMessage)));
    }
    var ata := derived.value;
    var create := CreateAtaInstruction(provider, mint, owner);
    var node := n;
    var account: Option<TokenAccount> := None;
    while account.None?
      invariant node.faults == n.faults
      invariant SameExcept(n.store, node.store, {ata})
      invariant node.sent == n.sent || node.sent == n.sent + [create]
      invariant node.sent == n.sent ==> node.store == n.store
      invariant node.sent != n.sent ==>
                  && GetAccount(n, ata) == Err(TokenAccountNotFound)
                  && IsTokenAccount(node.store, ata)
                  && node.store[ata].token == TokenAccount(mint, owner, 0, None, 0)
      invariant account.Some? ==> GetAccount(node, ata) == Ok(account.value)
      decreases (if ata in node.store then 0 else 1), (if account.None? then 1 else 0)
    {
      var found := GetAccount(node, ata);
      if found.Ok? {
        account := Some(found.value);
      } else if found.error == TokenAccountNotFound {
        var st := Send(node, create);
        node := st.node;
        if st.result.Err? {
          return Step(node, Err(st.result.error));
        }
      } else {
        return Step(node, Err(Thrown(LookupMessage(found.error))));
      }
    }
    return Step(node, Ok((ata, account.value)));
  }

  /** `getMint(connection, mint, "confirmed", TOKEN_2022_PROGRAM_ID)`. */
  function GetMint(n: Node, mint: Address): (r: Result<Mint, ClientError>)
    ensures r.Ok? <==> mint !in n.faults && IsMint(n.store, mint)
    ensures r.Ok? ==> r.value == n.store[mint].mintData
  {
    if mint in n.faults then Err(Thrown(n.faults[mint]))
    else if mint !in n.store then Err(Thrown("TokenAccountNotFoundError"))
    else if !n.store[mint].MintAccount? then Err(Thrown("TokenInvalidAccountOwnerError"))
    else Ok(n.store[mint].mintData)
  }

  /** `mintAweToken`: resolve or create the destination's associated account,
      read the mint's decimals, then mint exactly `amount` with those decimals.
      On success the destination holds `amount` more than before the call. */
  method MintAweToken(n: Node, mint: Address, toOwner: Address, amount: U64, provider: Address)
    returns (out: Step<()>)
    ensures out.node.faults == n.faults
    ensures out.result.Ok? ==>
              var ata := DeriveAssociatedTokenAddress(mint, toOwner);
              && |out.node.sent| > |n.sent|
              && IsMint(n.store, mint) && IsMint(out.node.store, mint)
              && out.node.sent[|out.node.sent| - 1] ==
                   MintToCheckedIx(mint, ata, provider, amount, out.node.store[mint].mintData.decimals)
              && Balance(out.node.store, ata) == Balance(n.store, ata) + amount
              && out.node.store[mint].mintData.supply == n.store[mint].mintData.supply + amount
  {
    var resolved := GetOrCreateAssociatedTokenAccount(n, mint, toOwner, provider);
    if resolved.result.Err? {
      return Step(resolved.node, Err(resolved.result.error));
    }
    var ata := resolved.result.value.0;
    var node := resolved.node;
    assert Balance(node.store, ata) == Balance(n.store, ata);
    if IsMint(node.store, mint) {
      assert mint != ata;
      assert mint in node.store.Keys - {ata};
      assert mint in n.store;
    }
    var mintInfo := GetMint(node, mint);
    if mintInfo.Err? {
      return Step(node, Err(mintInfo.error));
    }
    var st := Send(node, MintToCheckedIx(mint, ata, provider, amount, mintInfo.value.decimals));
    return st;
  }

  /** `approve`: the wallet lets `delegate` move up to `amount` from `source`,
      always stating 9 decimals. */
  function Approve(n: Node, mint: Address, source: Address, delegate: Address, amount: U64, wallet: Address)
    : (out: Step<()>)
    ensures out.node.sent == n.sent + [ApproveCheckedIx(source, mint, delegate, wallet, amount, AweMintDecimals)]
    ensures out.node.faults == n.faults
    ensures out.result.Ok? ==>
              && SameExcept(n.store, out.node.store, {source})
              && IsTokenAccount(n.store, source)
              && IsTokenAccountOf(out.node.store, source, mint)
              && out.node.store[source].token ==
                   n.store[source].token.(delegate := Some(delegate), delegatedAmount := amount)
    ensures out.result.Err? ==> out.node.store == n.store
    ensures IsTokenAccountOf(n.store, source, mint) && IsMint(n.store, mint)
            && n.store[mint].mintData.decimals != AweMintDecimals ==>
              out.result == Err(TransactionFailed(MintDecimalsMismatch))
  {
    Send(n, ApproveCheckedIx(source, mint, delegate, wallet, amount, AweMintDecimals))
  }
}
